=== FILE: README.md ===
# Nepali snack recommender: a Dafny model of its core

This project models the recommendation core of the Nepali snack recommender:

- `getRecommendations` ranks the other stored snacks for a given snack. It scores each one by cosine similarity of embedding vectors, adds 0.1 for the same category and caps the score at 1.0. It keeps scores of at least 0.6, sorts them descending and returns the top five.
- Cosine similarity comes with its three thrown errors and its zero-magnitude guard.
- The configuration constants are modelled, together with `choice` and the default description template.
- The input checks for new snacks are modelled: name, category, vector, description and emoji extraction.
- The liked-snacks set is kept in `localStorage`, in its browser copy and its server copy.

The model is written over the reals. `Math.sqrt` is a parameter `sqrt` with the one property the proofs need (`IsSqrt`: a non-negative root whose square is its argument). `Math.random()` is a parameter `random` in [0, 1). The MongoDB repository becomes a catalog, the sequence of stored snack documents in retrieval order:

- `findByName` returns the first document with the name;
- `findAllExcept` keeps the others in order;
- `exists` is membership in a set of stored names.

`localStorage` is a class holding the "likedSnacks" entry and two flags that say whether reading and writing succeed.

Points the code settles:

- `CATEGORY_WEIGHT` (0.7), `SIMILARITY_WEIGHT` (0.3) and `LIKED_BOOST` (0.15) are declared under a weighted-scoring comment (`src/constants/index.js:9-13`), but no code reads them. The score is the cosine plus a 0.1 category boost, capped at 1.0.
- The threshold applies to the boosted, capped score. `BoostLiftsOverThreshold` exhibits a candidate with cosine 0.5 that the boost keeps.
- The sort is stable, so ties keep pool order (`RecommendationsKeepPoolOrder`).
- The output records carry only `name`, `emoji`, `category` and `score`.
- The doc comment of `cosineSimilarity` (`src/utils/math.js:9`) promises a value between 0 and 1. The code returns values in [-1, 1], which is what `CosineSimilarity` states.
- `name.trim().length` counts UTF-16 code units, so a code point above U+FFFF counts twice towards the 100-character limit (`Utf16Length`).

## Model

| member | source | states |
|---|---|---|
| RecommendationService.GetRecommendations | src/services/recommendationService.js:19-90 | A falsy name fails first. No stored snack with the name fails with "not found". A target without a vector array fails with "invalid embedding". It succeeds exactly in the remaining case, and an empty pool gives an empty list. |
| RecommendationService.RecommendationsBounded | src/services/recommendationService.js:48-79 | At most five recommendations, in non-increasing score order, each scoring in [0.6, 1.0]. Each is named after a stored snack other than the target. |
| RecommendationService.RecommendationsAreBest | src/services/recommendationService.js:78-79 | The output is min(5, number qualifying) long and drawn from the qualifying candidates. No qualifying candidate left out scores above a returned one. |
| RecommendationService.RecommendationsKeepPoolOrder | src/services/recommendationService.js:78-79 | For every score, the returned records with that score are the first ones, in pool order, of the qualifying candidates with that score. |
| RecommendationService.QualifyingProvenance | src/services/recommendationService.js:48-77 | Every qualifying record scores in [0.6, 1.0] and is the scored form of some pool snack. |
| RecommendationService.FindByName | src/repositories/snackRepository.js:38-47 | Nothing is found iff no stored snack has the name. Otherwise the result is the first stored snack with that name. |
| RecommendationService.FindAllExcept | src/repositories/snackRepository.js:70-83 | A snack is in the pool iff it is stored and has another name. |
| RecommendationService.ScoreCandidate | src/services/recommendationService.js:49-73 | A candidate is scored iff its vector is an array of the target vector's non-zero length. The score is min(cos + 0.1 if same category, 1.0) and lies in [-1, 1]. The emoji defaults to U+1F374 and the category to "Street Food". |
| RecommendationService.Scored | src/services/recommendationService.js:48-74 | `map` then dropping `null`: at most one record per pool snack. `ScoredMembers`, `ScoredAppend` and `ScoredOne` state which records it holds and in what order. |
| RecommendationService.ScoredMembers | src/services/recommendationService.js:48-74 | Every kept record is the record of some pool snack, and every pool snack that scores is kept. Skipped candidates never fail the request. |
| RecommendationService.ScoredAppend | src/services/recommendationService.js:48-74 | Scoring a concatenated pool gives the scored records of the first part followed by those of the second, so records keep pool order. |
| RecommendationService.ScoredOne | src/services/recommendationService.js:49-74 | A single snack contributes exactly its record when it is scored, and nothing when it is skipped. With `ScoredAppend` this fixes the order and multiplicity of every record. |
| RecommendationService.AboveThreshold | src/services/recommendationService.js:75-77 | Keeps exactly the records scoring at least 0.6, with their multiplicities. For every score of at least 0.6, the records with that score are those of the input in input order; below 0.6 there are none. |
| RecommendationService.AboveThresholdAppend | src/services/recommendationService.js:75-77 | Filtering a concatenation filters each part and keeps them in order. |
| RecommendationService.Qualifying | src/services/recommendationService.js:48-77 | The map, drop-`null` and threshold chain. `QualifyingAppend` and `QualifyingOne` fix its contents and pool order, and `QualifyingProvenance` bounds its scores and traces each record to a pool snack. |
| RecommendationService.QualifyingAppend | src/services/recommendationService.js:48-77 | The qualifying records of a concatenated pool are those of the first part followed by those of the second. |
| RecommendationService.QualifyingOne | src/services/recommendationService.js:49-77 | A single snack qualifies with its record exactly when it is scored and its capped score is at least 0.6. |
| RecommendationService.ThresholdOnBoostedScore | src/services/recommendationService.js:56-77 | A scored candidate qualifies iff its boosted, capped score is at least 0.6. |
| RecommendationService.BoostLiftsOverThreshold | src/services/recommendationService.js:59-61 | A same-category candidate with cosine 0.5 scores exactly 0.6 and is kept. The same vector in another category scores 0.5 and is dropped. |
| RecommendationService.MissingCategoriesMatch | src/services/recommendationService.js:59-66 | Target and candidate both without a category get the boost, yet the output shows "Street Food". |
| RecommendationService.EmptyTargetVectorRecommendsNothing | src/services/recommendationService.js:34-72 | An empty target vector is accepted but every candidate is skipped. The result is an empty list, not an error. |
| RecommendationService.WorkedExample | src/services/recommendationService.js:19-90 | Target [1, 0] in "A" with X = [1, 0] in "A" and Y = [0, 1] in "B" returns only X with score 1.0 (1.1 capped). |
| VectorMath.CosineOneHalf | src/utils/math.js:28-39 | cos([1,0,0,0], [1,1,1,1]) is exactly 0.5. |
| VectorMath.UnitCosines | src/utils/math.js:28-39 | cos([1,0], [1,0]) = 1 and cos([1,0], [0,1]) = 0. |
| Ranking.Insert | src/services/recommendationService.js:78 | Inserting into a sorted list keeps it sorted and adds exactly the new record. |
| Ranking.SortByScore | src/services/recommendationService.js:78 | The result is sorted descending and is a permutation of the input. |
| Ranking.SortStable | src/services/recommendationService.js:78 | Records of equal score keep their input order. |
| Ranking.SortUnique | src/services/recommendationService.js:78 | Any sorted list that keeps every score's records in input order is the sort's result. |
| Ranking.Take | src/services/recommendationService.js:79 | `slice(0, k)` returns the first min(k, length) records. |
| Ranking.TopK | src/services/recommendationService.js:79 | Taking k of a sorted list keeps it sorted and takes records from it. Nothing left out scores above anything kept. |
| Ranking.TopKKeepsTies | src/services/recommendationService.js:78-79 | After sort and slice, each score's records are a prefix of that score's records in input order. |
| VectorMath.CosineSimilarity | src/utils/math.js:12-40 | A non-array argument fails, then differing lengths fail, then empty vectors fail. Otherwise it succeeds with a value in [-1, 1]: 0 when either vector is zero, else the value times the product of the magnitudes equals the dot product. |
| VectorMath.Cosine | src/utils/math.js:28-39 | The same value bounds, zero case and dot/(magA*magB) relation once the guards have passed. |
| VectorMath.CosineSymmetric | src/utils/math.js:28-39 | Swapping the arguments does not change the result. |
| VectorMath.SelfSimilarity | src/utils/math.js:28-39 | A non-zero vector has similarity exactly 1 with itself, and a zero vector 0. |
| VectorMath.CauchySchwarz | src/utils/math.js:28-32 | The squared dot product is at most the product of the squared norms. |
| VectorMath.NormSquaredZero | src/utils/math.js:31-37 | A squared norm is non-negative and zero exactly for the zero vector, which is when the guard returns 0. |
| VectorMath.Dot | src/utils/math.js:28-32 | The `reduce` fold of pairwise products. `DotSymmetric`, `NormSquaredZero` and `CauchySchwarz` state its properties. |
| VectorMath.DotSymmetric | src/utils/math.js:28 | The dot product fold is symmetric. |
| VectorMath.CosineOfKnownNorms | src/utils/math.js:31-39 | With magnitudes known, cosine times their product is the dot product. |
| Constants.WeightsSumToOne | src/constants/index.js:9-11 | The declared category and similarity weights sum to 1.0. |
| Constants.DefaultCategoryIsValid | src/constants/index.js:16 | "Street Food" is one of the four valid categories. |
| Constants.Choice | src/constants/index.js:33-35 | For a non-empty array and a draw in [0, 1), the result is an element of the array. |
| Constants.ChoiceReachesEvery | src/constants/index.js:33-35 | Every element is drawn by some value of `Math.random()`. |
| Constants.DefaultDescription | src/constants/index.js:37-40 | The description is name + " is a " + adjective + " Nepali snack " + emoji + " loved by everyone!", with the adjective from the five adjectives and the emoji from the five emojis. |
| JsValues.OrDefault | src/services/recommendationService.js:65-66 | `v \|\| fallback` gives the fallback for a falsy value and the value otherwise. |
| JsValues.Trim | src/utils/validation.js:15-16 | The result is a slice of the input with only whitespace before and after it. It is empty iff the input is all whitespace, and otherwise starts and ends with non-whitespace. |
| JsValues.TrimKeeps | src/utils/validation.js:15-16 | A string that starts and ends with non-whitespace trims to itself. |
| JsValues.Utf16Length | src/utils/validation.js:15-16 | `.length` counts one code unit per code point up to U+FFFF and two above it, so it lies between the code point count and twice it. |
| JsValues.Utf16LengthTrim | src/utils/validation.js:15-16 | Trimming never lengthens a string in code units. |
| JsValues.TrimIdempotent | src/utils/validation.js:15-16 | Trimming twice is trimming once. |
| Validation.IsValidSnackName | src/utils/validation.js:12-18 | True iff the name is a string, not all whitespace, whose trimmed length in UTF-16 code units is at most 100. Every non-blank string of at most 100 code units is valid. |
| Validation.UntrimmedNameLimit | src/utils/validation.js:12-18 | A name that starts and ends with non-whitespace is valid iff it has at most 100 code units. |
| Validation.LimitCountsCodeUnits | src/utils/validation.js:15-16 | 99 letters and a dumpling emoji make 100 code points but 101 code units and are rejected. 100 letters pass. |
| Validation.ValidityIgnoresSurroundingWhitespace | src/utils/validation.js:12-18 | A name and its trimmed form are valid together. |
| Validation.IsValidCategory | src/utils/validation.js:25-27 | A missing category is valid. A non-string is valid iff it is falsy. A string is valid iff it is "" or one of the four valid categories. |
| Validation.IsValidVector | src/utils/validation.js:34-40 | True iff the value is a non-empty array with no NaN and no non-number element. Infinity is accepted. |
| Validation.InfinityAcceptedNaNRejected | src/utils/validation.js:34-40 | A vector with Infinity passes. One with NaN fails, and so does the empty array. |
| Validation.ValidVectorIsComparable | src/utils/validation.js:34-40 | Two valid finite vectors of equal length never make `cosineSimilarity` throw, and their similarity lies in [-1, 1]. |
| Validation.FirstEmojiIndex | src/utils/validation.js:50 | Finds the leftmost code point in U+1F300..U+1FAFF, and finds none iff there is none. |
| Validation.CategoryEmoji | src/utils/validation.js:57-64 | Dessert gives U+1F36C, Street Food U+1F95F, Traditional Meal U+1F372, and anything else U+1F374. |
| Validation.ExtractOrDefaultEmoji | src/utils/validation.js:48-65 | Text containing an emoji-range code point gives the leftmost one. Otherwise, or for non-string text, the category default applies. The result is always one emoji-range code point. |
| Validation.NoCategoryMeansStreetFood | src/utils/validation.js:48 | Without a category argument, emoji-free text gives the dumpling U+1F95F. |
| Validation.ExtractIdempotent | src/utils/validation.js:48-65 | Extracting from an extracted emoji returns it, whatever the category. |
| SnackValidator.ValidateSnackName | src/utils/snackValidator.js:15-24 | An invalid name fails before the existence check. A valid name that is stored, compared untrimmed, fails with "already exists". It passes iff the name is valid and not stored. |
| SnackValidator.ValidateCategory | src/utils/snackValidator.js:31-37 | Passes iff the category is valid: falsy, or a known category. Every falsy value passes, and the only failure is the invalid-category error. |
| SnackValidator.NonStringCategory | src/utils/snackValidator.js:31-37 | A truthy non-string category, such as a number, is rejected. A falsy one passes, and the unknown string "Snack" is rejected. |
| SnackValidator.HasDescription | src/utils/snackValidator.js:53-60 | A description is accepted iff it is a string that is not all whitespace. |
| SnackValidator.ValidateSnackData | src/utils/snackValidator.js:47-62 | The name check comes first, then the category check, then the description check when it is required. The first failure is the error, and it passes iff every applicable check passes. |
| SnackValidator.ValidateSnackDataPasses | src/utils/snackValidator.js:47-62 | Passes iff the name is a non-blank string of at most 100 code units after trimming and is not stored, the category is missing, a falsy non-string, "" or a known category, and, when required, the description is a non-blank string. |
| SnackValidator.DescriptionOnlyNarrows | src/utils/snackValidator.js:53-61 | Requiring a description only adds a check: a pass with it is a pass without it, and a failure without it is the same failure with it. |
| SnackValidator.UntrimmedNamePassesExistenceCheck | src/utils/snackValidator.js:20-23 | " Momo" passes while "Momo" is stored, although it trims to "Momo". |
| LikedSnacks.Add | public/js/userPreferences.js:29 | `set.add` adds exactly the name, appended at the end when new and unchanged when present. It keeps a list free of duplicates. |
| LikedSnacks.Remove | public/js/userPreferences.js:45 | `set.delete` removes exactly the name. It keeps a list free of duplicates and leaves a list without the name unchanged. |
| LikedSnacks.RemoveKeepsOrder | public/js/userPreferences.js:45 | Deleting a name from a duplicate-free list keeps the others in order. |
| LikedSnacks.UnlikeUndoesLike | public/js/userPreferences.js:26-52 | Liking a new name and then unliking it restores the list. |
| LikedSnacks.Dedup | public/js/userPreferences.js:14 | `new Set(array)` has the same members and no duplicates, ordered by each name's first occurrence in the array. A duplicate-free array is left as it is. |
| LikedSnacks.FirstIndex | public/js/userPreferences.js:14 | The position of a name's first occurrence: it holds the name and no earlier position does. |
| LikedSnacks.DedupKeepsFirst | public/js/userPreferences.js:14 | `new Set(["a", "b", "a"])` gives "a", "b". |
| LikedSnacks.Parsed | public/js/userPreferences.js:12-15 | A stored array reads back as its duplicate-free set. A missing or unparseable entry reads as empty. |
| LikedSnacks.GetLikedSnacks | public/js/userPreferences.js:10-20 | The empty set when reading fails or nothing parseable is stored. Otherwise exactly the stored names, without duplicates. The copy at src/utils/userPreferences.js:10-20 is the same. |
| LikedSnacks.IsLiked | public/js/userPreferences.js:59-61 | True iff reading succeeds and the stored array holds the name. The copy at src/utils/userPreferences.js:55-57 is the same. |
| LikedSnacks.LikeWritesBack | public/js/userPreferences.js:26-31 | What `likeSnack` writes reads back unchanged. The name is liked and every other name keeps its status. |
| LikedSnacks.UnlikeWritesBack | public/js/userPreferences.js:42-47 | What `unlikeSnack` writes reads back unchanged. The name is not liked and every other name keeps its status. |
| LikedSnacks.LikeIdempotent | public/js/userPreferences.js:28-30 | Liking an already liked name writes back the stored list unchanged. |
| LikedSnacks.Join | public/js/userPreferences.js:69 | `join(",")` gives "" for no names and the name itself for one. |
| LikedSnacks.Split | public/js/userPreferences.js:69 | Splitting on "," gives at least one piece, and no piece holds a comma. |
| LikedSnacks.SplitJoin | public/js/userPreferences.js:67-70 | Splitting the joined string gives back any non-empty list of comma-free names. |
| LikedSnacks.LocalStorage.constructor | public/js/userPreferences.js:12 | A store with the given entry and access flags. |
| BrowserPreferences.LikeSnack | public/js/userPreferences.js:26-36 | Returns true iff the write succeeds, and then stores the read set with the name added. On failure the entry is unchanged. After success with a readable store, the name is liked and other names are unchanged. |
| BrowserPreferences.UnlikeSnack | public/js/userPreferences.js:42-52 | Returns true iff the write succeeds, and then stores the read set without the name. On failure the entry is unchanged. After success the name is not liked and other names are unchanged. |
| BrowserPreferences.GetLikedSnacksAsString | public/js/userPreferences.js:67-70 | "" exactly when no name, or only the empty name, is liked. |
| BrowserPreferences.LikedStringRoundTrip | public/js/userPreferences.js:67-70 | When at least one name is liked and none contains a comma, the joined string splits back into the liked names in stored order. |
| ServerPreferences.LikeSnack | src/utils/userPreferences.js:26-34 | The same write as the browser copy, with no return value. A failed write leaves the entry unchanged. |
| ServerPreferences.UnlikeSnack | src/utils/userPreferences.js:40-48 | The same write as the browser copy, with no return value. A failed write leaves the entry unchanged. |
| ServerPreferences.NodeHasNoLikes | src/utils/userPreferences.js:10-20 | Under Node, where `localStorage` does not exist, the liked set is empty and no name is liked. |

## Left out

- Floating point: scores, similarities and vectors are reals. IEEE rounding is not modelled. Neither is NaN or Infinity propagation: a NaN in a stored vector would make every comparison false.
- `Math.sqrt` is the parameter `sqrt`, constrained only to be a square root over the reals.
- `Math.random()` is the parameter `random` in [0, 1).
- MongoDB access (`findByName`, `findAllExcept`, `exists`) is a catalog sequence or a set of names. The retrieval order of `find` is whatever order the catalog lists, and database errors are not modelled.
- Logging, the HTTP routes, the Python embedding and description subprocesses, startup seeding and the legacy root `server.js` scorer are not part of this model.
- The browser UI (`public/script.js`, `public/js/ui.js`, `public/js/modal.js`, `public/js/api.js`) and `snackService.js` are not part of this model. The latter chains the validators and defaults modelled here with the description, embedding and database calls left out above. It stores `name.trim()` and `description.trim()` and a truthy request emoji as given. The untrimmed existence check does not see the trimmed name it stores (`UntrimmedNamePassesExistenceCheck`).
- `DB_CONFIG` and `EMBEDDING_CONFIG` (src/constants/index.js:49-57) are configuration values that no modelled code reads.
- JavaScript values: undefined, null and non-string values are one `None` for names and descriptions. The validator's category is a `JsArg`: missing, a string, or a non-string with its truthiness. The `category` argument of `extractOrDefaultEmoji` is an `Option`, where `None` is an omitted argument. A null category there is looked up as the key "null", which the model expresses as `Some("null")`.
- ScoreCandidate: a stored emoji is a string or missing. A truthy non-string emoji, which `snackService.js` stores as given, cannot be represented; the code would return it unchanged from `s.emoji || fallback`.
- ScoreCandidate: a stored category is a string or missing. A `null` category is not represented: `null === undefined` is false, so a `null`-category target and a candidate without the field get no boost, while the model boosts two missing categories alike.
- ExtractOrDefaultEmoji: a category equal to an inherited object key such as "constructor" would return that inherited value. The model returns U+1F374 for it, as for any other unknown category.
- IsValidVector: array elements are numbers, infinities, NaN or other types. Sparse arrays and array-like objects are not modelled.
- GetLikedSnacks: the stored entry is absent, unparseable, or a JSON array of strings. Other JSON values (a string parses to a set of its characters, a number makes `new Set` throw) are not modelled. An empty stored string counts as absent, as both are falsy.
- BrowserPreferences.LikeSnack: a store that can be written but not read loses the previous likes, because the failed read gives the empty set. The model keeps this behaviour. The entry is a single value, so another tab writing between the read and the write is not modelled.

=== FILE: browser_preferences.dfy ===
/** The browser's liked-snacks functions (public/js/userPreferences.js).
    `likeSnack` and `unlikeSnack` read the stored set (never throwing: a
    failed read is the empty set), change it, write it back and report
    whether the write succeeded. */
module BrowserPreferences {
  import opened LikedSnacks

  /** `likeSnack(snackName)`. */
  method LikeSnack(st: LocalStorage, snackName: string) returns (ok: bool)
    modifies st
    ensures ok == st.writable
    ensures st.readable == old(st.readable) && st.writable == old(st.writable)
    ensures ok ==> st.item == Names(Add(old(GetLikedSnacks(st)), snackName))
    ensures !ok ==> st.item == old(st.item)
    ensures ok && st.readable ==> IsLiked(st, snackName)
    ensures ok && st.readable ==> forall m | m != snackName :: IsLiked(st, m) == old(IsLiked(st, m))
  {
    var liked := GetLikedSnacks(st);
    liked := Add(liked, snackName);
    if st.writable {
      st.item := Names(liked);
      ok := true;
    } else {
      ok := false;
    }
  }

  /** `unlikeSnack(snackName)`. */
  method UnlikeSnack(st: LocalStorage, snackName: string) returns (ok: bool)
    modifies st
    ensures ok == st.writable
    ensures st.readable == old(st.readable) && st.writable == old(st.writable)
    ensures ok ==> st.item == Names(Remove(old(GetLikedSnacks(st)), snackName))
    ensures !ok ==> st.item == old(st.item)
    ensures ok ==> !IsLiked(st, snackName)
    ensures ok && st.readable ==> forall m | m != snackName :: IsLiked(st, m) == old(IsLiked(st, m))
  {
    var liked := GetLikedSnacks(st);
    liked := Remove(liked, snackName);
    if st.writable {
      st.item := Names(liked);
      ok := true;
    } else {
      ok := false;
    }
  }

  /** `getLikedSnacksAsString()`: the liked names joined by ",", in stored
      order; "" exactly when there is no liked name or only the empty one. */
  function GetLikedSnacksAsString(st: LocalStorage): (r: string)
    reads st
    ensures r == "" <==> GetLikedSnacks(st) == [] || GetLikedSnacks(st) == [""]
  {
    Join(GetLikedSnacks(st))
  }

  /** The joined string splits back into the liked names, in stored order,
      when there is at least one and none contains a comma. */
  lemma LikedStringRoundTrip(st: LocalStorage)
    requires GetLikedSnacks(st) != []
    requires forall m | m in GetLikedSnacks(st) :: ',' !in m
    ensures Split(GetLikedSnacksAsString(st)) == GetLikedSnacks(st)
  {
    SplitJoin(GetLikedSnacks(st));
  }
}

=== FILE: constants.dfy ===
/** Application constants (src/constants/index.js). */
module Constants {

  /** The values the recommendation pipeline reads. */
  const SimilarityThreshold: real := 0.6
  const CategoryBoost: real := 0.1
  const MaxRecommendations: nat := 5

  /** Declared beside the others but read by no code: the pipeline neither
      blends weights nor boosts liked snacks. */
  const CategoryWeight: real := 0.7
  const SimilarityWeight: real := 0.3
  const LikedBoost: real := 0.15

  const DefaultCategory: string := "Street Food"

  const ValidCategories: seq<string> := ["Street Food", "Traditional Meal", "Dessert", "Other"]

  const Adjectives: seq<string> := ["delicious", "tasty", "mouth-watering", "yummy", "flavorful"]

  /** Dumpling, oden, pot of food, curry rice, candy. */
  const Emojis: seq<string> := ["\U{1F95F}", "\U{1F362}", "\U{1F372}", "\U{1F35B}", "\U{1F36C}"]

  /** The two declared weights split the whole score, 70% and 30%. */
  lemma WeightsSumToOne()
    ensures CategoryWeight + SimilarityWeight == 1.0
  {
  }

  /** The category used when none is given is itself a valid category. */
  lemma DefaultCategoryIsValid()
    ensures DefaultCategory in ValidCategories
    ensures |ValidCategories| == 4
  {
  }

  /** `array[Math.floor(Math.random() * array.length)]`, with the value of
      `Math.random()` passed in as `random`. */
  function Choice<T>(xs: seq<T>, random: real): (r: T)
    requires |xs| > 0 && 0.0 <= random < 1.0
    ensures r in xs
  {
    var n := |xs| as real;
    assert (1.0 - random) * n > 0.0;
    xs[(random * n).Floor]
  }

  /** Every element can be drawn: a draw `random` with
      `random * array.length == k` picks element k. */
  lemma ChoiceReachesEvery<T>(xs: seq<T>, k: nat, random: real)
    requires k < |xs| && 0.0 <= random && random * |xs| as real == k as real
    ensures random < 1.0
    ensures Choice(xs, random) == xs[k]
  {
    BelowOne(random, |xs| as real);
    WholeFloor(random * |xs| as real, k);
  }

  lemma WholeFloor(p: real, k: int)
    requires p == k as real
    ensures p.Floor == k
  {
  }

  lemma BelowOne(u: real, n: real)
    requires n > 0.0 && u * n < n
    ensures u < 1.0
  {
  }

  /** `DEFAULT_DESCRIPTION(name)`, with the two `Math.random()` draws passed in. */
  function DefaultDescription(name: string, random1: real, random2: real): (d: string)
    requires 0.0 <= random1 < 1.0 && 0.0 <= random2 < 1.0
    ensures exists adjective, emoji | adjective in Adjectives && emoji in Emojis ::
              d == name + " is a " + adjective + " Nepali snack " + emoji + " loved by everyone!"
  {
    var adjective := Choice(Adjectives, random1);
    var emoji := Choice(Emojis, random2);
    name + " is a " + adjective + " Nepali snack " + emoji + " loved by everyone!"
  }
}

=== FILE: js_values.dfy ===
/** The few pieces of JavaScript value semantics the model relies on:
    truthiness of optional strings, the `||` default idiom and
    `String.prototype.trim`. A string is a sequence of Unicode code points;
    `None` stands for undefined, null or a value that is not a string. */
module JsValues {
  import opened Wrappers

  /** `!v` for a value that is a string or absent: only "" and absence are falsy. */
  predicate Falsy(v: Option<string>) {
    v.None? || v.value == ""
  }

  /** `v || fallback`. */
  function OrDefault(v: Option<string>, fallback: string): (r: string)
    ensures Falsy(v) ==> r == fallback
    ensures !Falsy(v) ==> r == v.value && r != ""
  {
    if Falsy(v) then fallback else v.value
  }

  /** The code points `String.prototype.trim` removes: WhiteSpace and
      LineTerminator of ECMA-262 (section 12.2 and 12.3, 2023 edition). */
  predicate IsWhitespace(c: char) {
    c == '\t' || c == '\n' || c == '\U{000B}' || c == '\U{000C}' || c == '\r' || c == ' '
    || c == '\U{00A0}' || c == '\U{1680}' || ('\U{2000}' <= c <= '\U{200A}')
    || c == '\U{2028}' || c == '\U{2029}' || c == '\U{202F}' || c == '\U{205F}'
    || c == '\U{3000}' || c == '\U{FEFF}'
  }

  predicate AllWhitespace(s: string) {
    forall k | 0 <= k < |s| :: IsWhitespace(s[k])
  }

  /** Drops leading whitespace: the result is the suffix of `s` that starts
      at its first non-whitespace code point. */
  function TrimStart(s: string): (r: string)
    ensures |r| <= |s| && r == s[|s| - |r|..]
    ensures AllWhitespace(s[..|s| - |r|])
    ensures r != [] ==> !IsWhitespace(r[0])
  {
    if |s| > 0 && IsWhitespace(s[0]) then TrimStart(s[1..]) else s
  }

  /** Drops trailing whitespace: the result is the prefix of `s` that ends
      at its last non-whitespace code point. */
  function TrimEnd(s: string): (r: string)
    ensures |r| <= |s| && r == s[..|r|]
    ensures AllWhitespace(s[|r|..])
    ensures r != [] ==> !IsWhitespace(r[|r| - 1])
  {
    if |s| > 0 && IsWhitespace(s[|s| - 1]) then TrimEnd(s[..|s| - 1]) else s
  }

  /** `s.trim()`: the piece `s[i..j]` left once the whitespace before `i`
      and after `j` is removed. It is empty exactly when `s` is all
      whitespace, and otherwise begins and ends with a non-whitespace code
      point. */
  function Trim(s: string): (r: string)
    ensures |r| <= |s|
    ensures exists i, j | 0 <= i <= j <= |s| :: r == s[i..j] && AllWhitespace(s[..i]) && AllWhitespace(s[j..])
    ensures r == [] <==> AllWhitespace(s)
    ensures r != [] ==> !IsWhitespace(r[0]) && !IsWhitespace(r[|r| - 1])
  {
    var t := TrimStart(s);
    var r := TrimEnd(t);
    TrimPiece(s, t, r);
    r
  }

  /** Dropping whitespace from the front and then from the back leaves a
      piece of `s` with only whitespace around it. */
  lemma TrimPiece(s: string, t: string, r: string)
    requires |t| <= |s| && t == s[|s| - |t|..] && AllWhitespace(s[..|s| - |t|])
    requires |r| <= |t| && r == t[..|r|] && AllWhitespace(t[|r|..])
    ensures var i := |s| - |t|;
            && r == s[i..i + |r|] && AllWhitespace(s[..i]) && AllWhitespace(s[i + |r|..])
    ensures r == [] ==> AllWhitespace(s)
  {
    var i := |s| - |t|;
    var j := i + |r|;
    forall k | 0 <= k < |s| - j
      ensures IsWhitespace(s[j..][k])
    {
      assert s[j..][k] == t[|r|..][k];
    }
    forall k | 0 <= k < |r|
      ensures r[k] == s[i..j][k]
    {
      assert r[k] == t[k];
    }
    if r == [] {
      forall k | 0 <= k < |s|
        ensures IsWhitespace(s[k])
      {
        if k < i {
          assert s[k] == s[..i][k];
        } else {
          assert s[k] == s[j..][k - j];
        }
      }
    }
  }

  /** Trimming twice is trimming once. */
  lemma TrimIdempotent(s: string)
    ensures Trim(Trim(s)) == Trim(s)
  {
    var r := Trim(s);
    if r != [] {
      assert TrimStart(r) == r;
      assert TrimEnd(r) == r;
    }
  }

  /** A string that starts and ends with non-whitespace is its own trim. */
  lemma TrimKeeps(s: string)
    requires s != [] && !IsWhitespace(s[0]) && !IsWhitespace(s[|s| - 1])
    ensures Trim(s) == s
  {
    assert TrimStart(s) == s;
    assert TrimEnd(s) == s;
  }

  /** `s.length`: the number of UTF-16 code units, one for a code point up
      to U+FFFF and two (a surrogate pair) for one above. */
  function Utf16Length(s: string): (n: nat)
    ensures |s| <= n <= 2 * |s|
  {
    if s == [] then 0 else (if s[0] > '\U{FFFF}' then 2 else 1) + Utf16Length(s[1..])
  }

  lemma {:induction false} Utf16LengthAppend(a: string, b: string)
    ensures Utf16Length(a + b) == Utf16Length(a) + Utf16Length(b)
  {
    if a != [] {
      assert (a + b)[0] == a[0] && (a + b)[1..] == a[1..] + b;
      Utf16LengthAppend(a[1..], b);
    } else {
      assert a + b == b;
    }
  }

  /** A piece of a string is no longer, in code units, than the string. */
  lemma Utf16LengthSlice(s: string, i: nat, j: nat)
    requires i <= j <= |s|
    ensures Utf16Length(s[i..j]) <= Utf16Length(s)
  {
    var front, mid, back := s[..i], s[i..j], s[j..];
    assert s[..j] == front + mid;
    assert s == s[..j] + back;
    Utf16LengthAppend(s[..j], back);
    Utf16LengthAppend(front, mid);
  }

  /** Trimming never lengthens a string. */
  lemma Utf16LengthTrim(s: string)
    ensures Utf16Length(Trim(s)) <= Utf16Length(s)
  {
    var i, j :| 0 <= i <= j <= |s| && Trim(s) == s[i..j] && AllWhitespace(s[..i]) && AllWhitespace(s[j..]);
    Utf16LengthSlice(s, i, j);
  }

  /** A code point above U+FFFF counts twice, the others once. */
  lemma {:induction false} Utf16LengthBasic(s: string)
    requires forall k | 0 <= k < |s| :: s[k] <= '\U{FFFF}'
    ensures Utf16Length(s) == |s|
  {
    if s != [] {
      Utf16LengthBasic(s[1..]);
    }
  }

  /** An argument as JavaScript sees it: missing (undefined or null), a
      string, or a value of another type with its truthiness. */
  datatype JsArg = Missing | Str(value: string) | NonString(truthy: bool)

  /** `!v`. */
  predicate ArgFalsy(v: JsArg) {
    v.Missing? || (v.Str? && v.value == "") || (v.NonString? && !v.truthy)
  }
}

=== FILE: liked_snacks.dfy ===
/** The liked-snacks store shared by public/js/userPreferences.js and
    src/utils/userPreferences.js: a JavaScript `Set` of names kept in the
    "likedSnacks" entry of `localStorage` as a JSON array.

    A `Set` is a sequence without duplicates in insertion order, which is
    the order `Array.from` and `JSON.stringify` write it back in. */
module LikedSnacks {

  predicate NoDuplicates(xs: seq<string>) {
    forall i, j | 0 <= i < j < |xs| :: xs[i] != xs[j]
  }

  /** `set.add(n)`: appended at the end unless already present. */
  function Add(xs: seq<string>, n: string): (r: seq<string>)
    ensures forall m :: m in r <==> m in xs || m == n
    ensures NoDuplicates(xs) ==> NoDuplicates(r)
    ensures n in xs ==> r == xs
    ensures n !in xs ==> |r| == |xs| + 1 && r[..|xs|] == xs && r[|xs|] == n
  {
    if n in xs then xs else xs + [n]
  }

  /** `set.delete(n)`: the other names, in their order. */
  function Remove(xs: seq<string>, n: string): (r: seq<string>)
    ensures forall m :: m in r <==> m in xs && m != n
    ensures NoDuplicates(xs) ==> NoDuplicates(r)
    ensures n !in xs ==> r == xs
    ensures |r| <= |xs|
  {
    if xs == [] then []
    else
      assert NoDuplicates(xs) ==> NoDuplicates(xs[1..]) && xs[0] !in xs[1..] by {
        if NoDuplicates(xs) { NoDuplicatesTail(xs); }
      }
      var rest := Remove(xs[1..], n);
      if xs[0] == n then rest
      else [xs[0]] + rest
  }

  /** The position of the first occurrence of `m` in `xs`. */
  function FirstIndex(xs: seq<string>, m: string): (k: nat)
    requires m in xs
    ensures k < |xs| && xs[k] == m && m !in xs[..k]
  {
    if xs[0] == m then 0
    else
      assert xs[1..][..FirstIndex(xs[1..], m)] == xs[1..1 + FirstIndex(xs[1..], m)];
      1 + FirstIndex(xs[1..], m)
  }

  /** Only one position is the first occurrence. */
  lemma FirstIndexUnique(xs: seq<string>, m: string, k: nat)
    requires k < |xs| && xs[k] == m && m !in xs[..k]
    ensures FirstIndex(xs, m) == k
  {
  }

  /** Appending a name does not move the first occurrences before it. */
  lemma FirstIndexSnoc(xs: seq<string>, x: string, m: string)
    requires m in xs
    ensures m in xs + [x] && FirstIndex(xs + [x], m) == FirstIndex(xs, m)
  {
    var k := FirstIndex(xs, m);
    assert (xs + [x])[..k] == xs[..k];
    FirstIndexUnique(xs + [x], m, k);
  }

  /** `new Set(names)`: the first occurrence of each name, in the order of
      those first occurrences. */
  function Dedup(names: seq<string>): (r: seq<string>)
    ensures forall m :: m in r <==> m in names
    ensures NoDuplicates(r)
    ensures forall i, j | 0 <= i < j < |r| :: FirstIndex(names, r[i]) < FirstIndex(names, r[j])
    ensures |r| <= |names|
    ensures NoDuplicates(names) ==> r == names
  {
    if names == [] then []
    else
      var init := names[..|names| - 1];
      assert names == init + [names[|names| - 1]];
      DedupStep(init, names[|names| - 1], Dedup(init));
      Add(Dedup(init), names[|names| - 1])
  }

  /** A repeated name stays where it first appeared. */
  lemma DedupKeepsFirst()
    ensures Dedup(["a", "b", "a"]) == ["a", "b"]
  {
    assert ["a", "b", "a"][..2] == ["a", "b"];
    assert ["a", "b"][..1] == ["a"];
    assert ["a"][..0] == [];
  }

  /** Adding the next name keeps the result in first-occurrence order. */
  lemma DedupStep(init: seq<string>, x: string, d: seq<string>)
    requires forall m :: m in d <==> m in init
    requires forall i, j | 0 <= i < j < |d| :: FirstIndex(init, d[i]) < FirstIndex(init, d[j])
    ensures forall i, j | 0 <= i < j < |Add(d, x)| ::
              FirstIndex(init + [x], Add(d, x)[i]) < FirstIndex(init + [x], Add(d, x)[j])
  {
    var names := init + [x];
    var r := Add(d, x);
    forall i | 0 <= i < |d|
      ensures FirstIndex(names, d[i]) == FirstIndex(init, d[i])
    {
      FirstIndexSnoc(init, x, d[i]);
    }
    if x !in d {
      assert names[..|init|] == init;
      FirstIndexUnique(names, x, |init|);
      forall i, j | 0 <= i < j < |r|
        ensures FirstIndex(names, r[i]) < FirstIndex(names, r[j])
      {
        assert r[i] == d[i];
        if j < |d| {
          assert r[j] == d[j];
        }
      }
    }
  }

  /** `Array.from(set).join(",")`. */
  function Join(xs: seq<string>): (r: string)
    ensures xs == [] ==> r == ""
    ensures |xs| == 1 ==> r == xs[0]
    ensures |r| >= |xs| - 1
  {
    if xs == [] then ""
    else if |xs| == 1 then xs[0]
    else xs[0] + "," + Join(xs[1..])
  }

  /** `s.split(",")`, the reading that `Join` is meant for. */
  function Split(s: string): (r: seq<string>)
    ensures |r| > 0
    ensures forall k | 0 <= k < |r| :: ',' !in r[k]
  {
    if s == [] then [""]
    else if s[0] == ',' then [""] + Split(s[1..])
    else
      var rest := Split(s[1..]);
      assert ',' !in [s[0]] + rest[0];
      [[s[0]] + rest[0]] + rest[1..]
  }

  lemma {:induction false} SplitNoComma(a: string)
    requires ',' !in a
    ensures Split(a) == [a]
  {
    if a != [] {
      assert ',' !in a[1..];
      SplitNoComma(a[1..]);
      assert [a[0]] + a[1..] == a;
    }
  }

  lemma {:induction false} SplitAfterName(a: string, t: string)
    requires ',' !in a
    ensures Split(a + "," + t) == [a] + Split(t)
  {
    if a == [] {
      assert a + "," + t == [','] + t;
      assert ([','] + t)[1..] == t;
    } else {
      assert ',' !in a[1..];
      SplitAfterName(a[1..], t);
      assert (a + "," + t)[1..] == a[1..] + "," + t;
      assert [a[0]] + a[1..] == a;
    }
  }

  /** Joining and splitting again gives back a non-empty list of names that
      contain no comma. The empty list is not recovered: it joins to "",
      which is also the join of [""]. */
  lemma {:induction false} SplitJoin(xs: seq<string>)
    requires xs != [] && forall k | 0 <= k < |xs| :: ',' !in xs[k]
    ensures Split(Join(xs)) == xs
  {
    if |xs| == 1 {
      SplitNoComma(xs[0]);
    } else {
      assert ',' !in xs[0];
      SplitJoin(xs[1..]);
      SplitAfterName(xs[0], Join(xs[1..]));
      assert [xs[0]] + xs[1..] == xs;
    }
  }

  lemma NoDuplicatesTail(xs: seq<string>)
    requires NoDuplicates(xs) && xs != []
    ensures NoDuplicates(xs[1..]) && xs[0] !in xs[1..]
  {
    forall k | 0 <= k < |xs| - 1 ensures xs[1..][k] != xs[0] { assert xs[k + 1] != xs[0]; }
  }

  /** Deleting a present name from a duplicate-free list closes the gap
      and keeps the order of the others. */
  lemma {:induction false} RemoveKeepsOrder(a: seq<string>, n: string, b: seq<string>)
    requires NoDuplicates(a + [n] + b)
    ensures Remove(a + [n] + b, n) == a + b
  {
    var xs := a + [n] + b;
    NoDuplicatesTail(xs);
    if a == [] {
      assert xs[0] == n && xs[1..] == b;
    } else {
      assert xs[0] == a[0] && xs[1..] == a[1..] + [n] + b;
      assert n in xs[1..];
      RemoveKeepsOrder(a[1..], n, b);
      assert [a[0]] + (a[1..] + b) == a + b;
    }
  }

  /** Liking a name that was not liked and unliking it again restores the list. */
  lemma UnlikeUndoesLike(xs: seq<string>, n: string)
    requires NoDuplicates(xs) && n !in xs
    ensures Remove(Add(xs, n), n) == xs
  {
    assert Add(xs, n) == xs + [n] + [];
    RemoveKeepsOrder(xs, n, []);
  }

  /** The "likedSnacks" entry: missing (or ""), a string that `JSON.parse`
      rejects, or a JSON array of names. */
  datatype Entry = Absent | Unparseable | Names(names: seq<string>)

  /** `localStorage`, reduced to the one entry. `readable` is false where
      `getItem` throws (no `localStorage` at all, as in Node, or access
      denied); `writable` is false where `setItem` throws. */
  class LocalStorage {
    var item: Entry
    var readable: bool
    var writable: bool

    constructor (item: Entry, readable: bool, writable: bool)
      ensures this.item == item && this.readable == readable && this.writable == writable
    {
      this.item := item;
      this.readable := readable;
      this.writable := writable;
    }
  }

  /** The set a stored entry parses to. */
  function Parsed(item: Entry): (r: seq<string>)
    ensures NoDuplicates(r)
    ensures forall m :: m in r <==> item.Names? && m in item.names
    ensures item.Names? && NoDuplicates(item.names) ==> r == item.names
  {
    if item.Names? then Dedup(item.names) else []
  }

  /** `getLikedSnacks()`: the stored set, or the empty set when nothing is
      stored or reading or parsing throws. */
  function GetLikedSnacks(st: LocalStorage): (r: seq<string>)
    reads st
    ensures NoDuplicates(r)
    ensures !st.readable || !st.item.Names? ==> r == []
    ensures forall m :: m in r <==> st.readable && st.item.Names? && m in st.item.names
  {
    if st.readable then Parsed(st.item) else []
  }

  /** `isLiked(snackName)`. */
  function IsLiked(st: LocalStorage, snackName: string): (r: bool)
    reads st
    ensures r <==> st.readable && st.item.Names? && snackName in st.item.names
  {
    snackName in GetLikedSnacks(st)
  }

  /** What `likeSnack` writes, read back: the name is liked, every other
      name keeps its status, and the list is the old one with the name
      appended when it was new. */
  lemma LikeWritesBack(item: Entry, n: string)
    ensures var written := Add(Parsed(item), n);
            && Parsed(Names(written)) == written
            && n in Parsed(Names(written))
            && (forall m | m != n :: m in Parsed(Names(written)) <==> m in Parsed(item))
  {
  }

  /** What `unlikeSnack` writes, read back: the name is not liked and every
      other name keeps its status. */
  lemma UnlikeWritesBack(item: Entry, n: string)
    ensures var written := Remove(Parsed(item), n);
            && Parsed(Names(written)) == written
            && n !in Parsed(Names(written))
            && (forall m | m != n :: m in Parsed(Names(written)) <==> m in Parsed(item))
  {
  }

  /** Liking an already liked name writes back the list that was stored,
      once that list has no duplicates (as every list written here has none). */
  lemma LikeIdempotent(names: seq<string>, n: string)
    requires NoDuplicates(names) && n in names
    ensures Add(Parsed(Names(names)), n) == names
  {
  }
}

=== FILE: ranking.dfy ===
/** The ranking half of the recommendation pipeline
    (src/services/recommendationService.js): the output record, the stable
    descending sort `sort((a, b) => b.score - a.score)` and the top-K
    `slice(0, k)`. `Array.prototype.sort` is stable since ECMAScript 2019
    (section 23.1.3.30 of ECMA-262, 2023 edition), so the sort is modelled as a
    stable insertion sort. */
module Ranking {

  /** One entry of `{ recommendations }`. */
  datatype Recommendation = Recommendation(name: string, emoji: string, category: string, score: real)

  /** Scores never increase from left to right. */
  predicate SortedByScore(rs: seq<Recommendation>) {
    forall i, j | 0 <= i < j < |rs| :: rs[i].score >= rs[j].score
  }

  /** The records of `rs` whose score is exactly `v`, in their order in `rs`.
      A sort is stable when it keeps `WithScore(rs, v)` for every `v`. */
  function WithScore(rs: seq<Recommendation>, v: real): seq<Recommendation> {
    if rs == [] then []
    else (if rs[0].score == v then [rs[0]] else []) + WithScore(rs[1..], v)
  }

  /** Inserts `r` into a sorted list, in front of every record whose score
      does not exceed its own. */
  function Insert(r: Recommendation, rs: seq<Recommendation>): (out: seq<Recommendation>)
    requires SortedByScore(rs)
    ensures SortedByScore(out)
    ensures multiset(out) == multiset(rs) + multiset{r}
    ensures forall x | x in out :: x == r || x in rs
  {
    if rs == [] || r.score >= rs[0].score then [r] + rs
    else
      var rest := Insert(r, rs[1..]);
      assert rs == [rs[0]] + rs[1..];
      assert forall k | 0 <= k < |rest| :: rest[k].score <= rs[0].score by {
        forall k | 0 <= k < |rest| ensures rest[k].score <= rs[0].score {
          assert rest[k] in rest;
        }
      }
      [rs[0]] + rest
  }

  /** The stable descending sort the pipeline applies to its scored candidates. */
  function SortByScore(rs: seq<Recommendation>): (out: seq<Recommendation>)
    ensures SortedByScore(out)
    ensures multiset(out) == multiset(rs)
    ensures |out| == |rs|
  {
    if rs == [] then []
    else
      assert rs == [rs[0]] + rs[1..];
      Insert(rs[0], SortByScore(rs[1..]))
  }

  lemma {:induction false} WithScoreAppend(xs: seq<Recommendation>, ys: seq<Recommendation>, v: real)
    ensures WithScore(xs + ys, v) == WithScore(xs, v) + WithScore(ys, v)
  {
    if xs != [] {
      var head := if xs[0].score == v then [xs[0]] else [];
      assert (xs + ys)[0] == xs[0];
      assert (xs + ys)[1..] == xs[1..] + ys;
      calc {
        WithScore(xs + ys, v);
        head + WithScore(xs[1..] + ys, v);
        { WithScoreAppend(xs[1..], ys, v); }
        head + (WithScore(xs[1..], v) + WithScore(ys, v));
        (head + WithScore(xs[1..], v)) + WithScore(ys, v);
        WithScore(xs, v) + WithScore(ys, v);
      }
    } else {
      assert xs + ys == ys;
    }
  }

  lemma {:induction false} WithScoreMembers(rs: seq<Recommendation>, v: real, x: Recommendation)
    ensures x in WithScore(rs, v) <==> x in rs && x.score == v
  {
    if rs != [] {
      WithScoreMembers(rs[1..], v, x);
      assert rs == [rs[0]] + rs[1..];
    }
  }

  lemma LeadingScorePresent(rs: seq<Recommendation>)
    ensures rs != [] ==> WithScore(rs, rs[0].score) != []
  {
  }

  /** Insertion keeps the relative order of equal scores, with `r` first. */
  lemma {:induction false} InsertStable(r: Recommendation, rs: seq<Recommendation>, v: real)
    requires SortedByScore(rs)
    ensures WithScore(Insert(r, rs), v) == (if r.score == v then [r] else []) + WithScore(rs, v)
  {
    var own := if r.score == v then [r] else [];
    if rs == [] || r.score >= rs[0].score {
      assert ([r] + rs)[1..] == rs;
    } else {
      var first := if rs[0].score == v then [rs[0]] else [];
      var rest := Insert(r, rs[1..]);
      assert ([rs[0]] + rest)[1..] == rest;
      calc {
        WithScore(Insert(r, rs), v);
        WithScore([rs[0]] + rest, v);
        first + WithScore(rest, v);
        { InsertStable(r, rs[1..], v); }
        first + (own + WithScore(rs[1..], v));
        { assert r.score < rs[0].score; assert own == [] || first == []; }
        own + (first + WithScore(rs[1..], v));
        own + WithScore(rs, v);
      }
    }
  }

  /** The sort is stable: records of equal score keep their input order. */
  lemma {:induction false} SortStable(rs: seq<Recommendation>, v: real)
    ensures WithScore(SortByScore(rs), v) == WithScore(rs, v)
  {
    if rs != [] {
      SortStable(rs[1..], v);
      InsertStable(rs[0], SortByScore(rs[1..]), v);
    }
  }

  /** Sortedness and stability determine the result: any sorted list that
      keeps every score's records in input order is `SortByScore(rs)`. */
  lemma SortUnique(rs: seq<Recommendation>, out: seq<Recommendation>)
    requires SortedByScore(out)
    requires forall v :: WithScore(out, v) == WithScore(rs, v)
    ensures out == SortByScore(rs)
  {
    forall v ensures WithScore(out, v) == WithScore(SortByScore(rs), v) {
      SortStable(rs, v);
    }
    SortedStableEqual(out, SortByScore(rs));
  }

  lemma {:induction false} SortedStableEqual(s: seq<Recommendation>, t: seq<Recommendation>)
    requires SortedByScore(s) && SortedByScore(t)
    requires forall v :: WithScore(s, v) == WithScore(t, v)
    ensures s == t
  {
    LeadingScorePresent(s);
    LeadingScorePresent(t);
    if s != [] && t != [] {
      SameHead(s, t);
      forall v ensures WithScore(s[1..], v) == WithScore(t[1..], v) {
        DropSameHead(s, t, v);
      }
      assert SortedByScore(s[1..]) && SortedByScore(t[1..]);
      SortedStableEqual(s[1..], t[1..]);
      assert s == [s[0]] + s[1..];
      assert t == [t[0]] + t[1..];
    }
  }

  /** Two sorted lists with the same records per score start alike. */
  lemma SameHead(s: seq<Recommendation>, t: seq<Recommendation>)
    requires SortedByScore(s) && SortedByScore(t) && s != [] && t != []
    requires forall v :: WithScore(s, v) == WithScore(t, v)
    ensures s[0] == t[0]
  {
    var m := s[0].score;
    WithScoreMembers(t, m, s[0]);
    WithScoreMembers(s, t[0].score, t[0]);
    assert WithScore(s, m) == WithScore(t, m);
    assert WithScore(s, t[0].score) == WithScore(t, t[0].score);
    assert t[0].score == m;
    assert s[0] == WithScore(s, m)[0] == WithScore(t, m)[0] == t[0];
  }

  lemma DropSameHead(s: seq<Recommendation>, t: seq<Recommendation>, v: real)
    requires s != [] && t != [] && s[0] == t[0]
    requires WithScore(s, v) == WithScore(t, v)
    ensures WithScore(s[1..], v) == WithScore(t[1..], v)
  {
    var head := if s[0].score == v then [s[0]] else [];
    assert WithScore(s, v) == head + WithScore(s[1..], v);
    assert WithScore(t, v) == head + WithScore(t[1..], v);
    assert WithScore(s[1..], v) == WithScore(s, v)[|head|..];
    assert WithScore(t[1..], v) == WithScore(t, v)[|head|..];
  }

  /** `rs.slice(0, k)`. */
  function Take(rs: seq<Recommendation>, k: nat): (out: seq<Recommendation>)
    ensures |out| == if |rs| < k then |rs| else k
    ensures out == rs[..|out|]
  {
    if |rs| <= k then rs else rs[..k]
  }

  /** Taking the first k of a sorted list gives the k best: nothing left out
      scores above anything kept, and equal scores keep their order. */
  lemma TopK(rs: seq<Recommendation>, k: nat)
    requires SortedByScore(rs)
    ensures SortedByScore(Take(rs, k))
    ensures multiset(Take(rs, k)) <= multiset(rs)
    ensures forall x, y | x in multiset(rs) - multiset(Take(rs, k)) && y in Take(rs, k) :: x.score <= y.score
    ensures forall v :: WithScore(rs, v) == WithScore(Take(rs, k), v) + WithScore(rs[|Take(rs, k)|..], v)
  {
    var out := Take(rs, k);
    var n := |out|;
    assert rs == out + rs[n..];
    assert multiset(rs) == multiset(out) + multiset(rs[n..]);
    TopKLeftOutNoHigher(rs, n);
    forall v ensures WithScore(rs, v) == WithScore(out, v) + WithScore(rs[n..], v) {
      WithScoreAppend(out, rs[n..], v);
    }
  }

  lemma TopKLeftOutNoHigher(rs: seq<Recommendation>, n: nat)
    requires SortedByScore(rs) && n <= |rs|
    ensures forall x, y | x in multiset(rs) - multiset(rs[..n]) && y in rs[..n] :: x.score <= y.score
  {
    var out := rs[..n];
    assert rs == out + rs[n..];
    assert multiset(rs) == multiset(out) + multiset(rs[n..]);
    forall x, y | x in multiset(rs) - multiset(out) && y in out
      ensures x.score <= y.score
    {
      assert x in multiset(rs[n..]);
      var j :| n <= j < |rs| && rs[j] == x;
      var i :| 0 <= i < n && out[i] == y;
    }
  }

  /** Sorting then taking k keeps, for every score, a prefix of that
      score's records in input order. */
  lemma TopKKeepsTies(rs: seq<Recommendation>, k: nat, v: real)
    ensures var tied := WithScore(Take(SortByScore(rs), k), v);
            |tied| <= |WithScore(rs, v)| && tied == WithScore(rs, v)[..|tied|]
  {
    var sorted := SortByScore(rs);
    TopK(sorted, k);
    SortStable(rs, v);
  }
}

=== FILE: recommendation_service.dfy ===
/** `RecommendationService.getRecommendations`
    (src/services/recommendationService.js): look up the target snack, score
    every other snack by cosine similarity plus a same-category boost, cap at
    1.0, keep the scores of at least 0.6, sort descending and keep five.

    The repository is replaced by a catalog, the list of stored snack
    documents in retrieval order; `findByName` and `findAllExcept` become
    functions over it. `Math.sqrt` is the `sqrt` parameter. */
module RecommendationService {
  import opened Wrappers
  import opened JsValues
  import opened Constants
  import opened VectorMath
  import opened Ranking

  /** A stored snack document. `None` for `category` or `emoji` is a missing
      field; `None` for `vector` is a missing field or one that is not an array. */
  datatype Snack = Snack(name: string, category: Option<string>, emoji: Option<string>, vector: Option<seq<real>>)

  /** The three errors `getRecommendations` throws. */
  datatype RecommendationError =
    | InvalidSnackName           // "Snack name must be a non-empty string"
    | SnackNotFound(name: string)       // "Snack '<name>' not found"
    | InvalidEmbedding(name: string)    // "Snack '<name>' has invalid embedding vector"

  /** The emoji shown for a candidate that has none (fork and knife). */
  const FallbackEmoji: string := "\U{1F374}"

  /** `snackRepository.findByName(name)`: the first stored snack with that name. */
  function FindByName(catalog: seq<Snack>, name: string): (r: Option<Snack>)
    ensures r.None? <==> forall s | s in catalog :: s.name != name
    ensures r.Some? ==> exists i | 0 <= i < |catalog| :: catalog[i] == r.value && r.value.name == name &&
                          forall j | 0 <= j < i :: catalog[j].name != name
  {
    if catalog == [] then None
    else if catalog[0].name == name then Some(catalog[0])
    else FindByName(catalog[1..], name)
  }

  /** `snackRepository.findAllExcept(name)`: every stored snack with another
      name, in retrieval order. */
  function FindAllExcept(catalog: seq<Snack>, name: string): (r: seq<Snack>)
    ensures forall s :: s in r <==> s in catalog && s.name != name
    ensures |r| <= |catalog|
  {
    if catalog == [] then []
    else (if catalog[0].name != name then [catalog[0]] else []) + FindAllExcept(catalog[1..], name)
  }

  /** Whether two snacks match by `s.category === snack.category`: two
      missing categories are equal. */
  predicate SameCategory(s: Snack, target: Snack) {
    s.category == target.category
  }

  /** The body of the `map` callback for one candidate: `None` where it
      returns null (vector missing or not an array, or `cosineSimilarity`
      throws), otherwise the output record with the boosted, capped score. */
  function ScoreCandidate(sqrt: real -> real, target: Snack, targetVector: seq<real>, s: Snack): (r: Option<Recommendation>)
    requires IsSqrt(sqrt)
    ensures r.Some? <==> s.vector.Some? && |s.vector.value| == |targetVector| > 0
    ensures r.Some? ==> r.value.name == s.name
    ensures r.Some? ==> r.value.emoji == OrDefault(s.emoji, FallbackEmoji)
    ensures r.Some? ==> r.value.category == OrDefault(s.category, DefaultCategory)
    ensures r.Some? ==>
              var cos := Cosine(sqrt, targetVector, s.vector.value);
              var boosted := if SameCategory(s, target) then cos + CategoryBoost else cos;
              r.value.score == (if boosted <= 1.0 then boosted else 1.0)
    ensures r.Some? ==> -1.0 <= r.value.score <= 1.0
  {
    if s.vector.None? then None
    else
      match CosineSimilarity(sqrt, Some(targetVector), s.vector)
      case Failure(_) => None
      case Success(cos) =>
        var score := if SameCategory(s, target) then cos + CategoryBoost else cos;
        Some(Recommendation(
          s.name,
          OrDefault(s.emoji, FallbackEmoji),
          OrDefault(s.category, DefaultCategory),
          if score <= 1.0 then score else 1.0))
  }

  /** `allSnacks.map(...).filter((rec) => rec !== null)`: each pool snack's
      record, in pool order. `ScoredAppend` and `ScoredOne` pin it down;
      `ScoredMembers` says which records it holds. */
  function Scored(sqrt: real -> real, target: Snack, targetVector: seq<real>, pool: seq<Snack>): (r: seq<Recommendation>)
    requires IsSqrt(sqrt)
    ensures |r| <= |pool|
  {
    if pool == [] then []
    else
      var rest := Scored(sqrt, target, targetVector, pool[1..]);
      match ScoreCandidate(sqrt, target, targetVector, pool[0])
      case None => rest
      case Some(x) => [x] + rest
  }

  /** Every kept record is the record of some pool snack, and every pool
      snack that scores has its record kept. */
  lemma {:induction false} ScoredMembers(sqrt: real -> real, target: Snack, targetVector: seq<real>, pool: seq<Snack>)
    requires IsSqrt(sqrt)
    ensures var r := Scored(sqrt, target, targetVector, pool);
            && (forall x | x in r :: exists s | s in pool :: ScoreCandidate(sqrt, target, targetVector, s) == Some(x))
            && (forall s | s in pool && ScoreCandidate(sqrt, target, targetVector, s).Some? ::
                  ScoreCandidate(sqrt, target, targetVector, s).value in r)
  {
    if pool != [] {
      ScoredMembers(sqrt, target, targetVector, pool[1..]);
      assert forall s | s in pool[1..] :: s in pool;
      assert pool == [pool[0]] + pool[1..];
    }
  }

  /** `.filter((rec) => rec.score >= SIMILARITY_THRESHOLD)`, on the capped score. */
  function AboveThreshold(rs: seq<Recommendation>): (r: seq<Recommendation>)
    ensures forall x :: multiset(r)[x] == if x.score >= SimilarityThreshold then multiset(rs)[x] else 0
    ensures forall v :: WithScore(r, v) == if v >= SimilarityThreshold then WithScore(rs, v) else []
  {
    if rs == [] then []
    else
      assert rs == [rs[0]] + rs[1..];
      var head := if rs[0].score >= SimilarityThreshold then [rs[0]] else [];
      var rest := AboveThreshold(rs[1..]);
      assert forall v :: WithScore(head + rest, v) == WithScore(head, v) + WithScore(rest, v) by {
        forall v ensures WithScore(head + rest, v) == WithScore(head, v) + WithScore(rest, v) {
          WithScoreAppend(head, rest, v);
        }
      }
      head + rest
  }

  /** Scoring maps a pool piece by piece: the scored form of a
      concatenation is the concatenation of the scored forms. With
      `ScoredOne` this fixes the order and the multiplicities of `Scored`
      as those of the pool. */
  lemma {:induction false} ScoredAppend(sqrt: real -> real, target: Snack, targetVector: seq<real>, p: seq<Snack>, q: seq<Snack>)
    requires IsSqrt(sqrt)
    ensures Scored(sqrt, target, targetVector, p + q) == Scored(sqrt, target, targetVector, p) + Scored(sqrt, target, targetVector, q)
  {
    if p == [] {
      assert p + q == q;
    } else {
      ScoredAppend(sqrt, target, targetVector, p[1..], q);
      ScoredAppendStep(sqrt, target, targetVector, p, q);
    }
  }

  lemma ScoredAppendStep(sqrt: real -> real, target: Snack, targetVector: seq<real>, p: seq<Snack>, q: seq<Snack>)
    requires IsSqrt(sqrt) && p != []
    requires Scored(sqrt, target, targetVector, p[1..] + q) ==
               Scored(sqrt, target, targetVector, p[1..]) + Scored(sqrt, target, targetVector, q)
    ensures Scored(sqrt, target, targetVector, p + q) == Scored(sqrt, target, targetVector, p) + Scored(sqrt, target, targetVector, q)
  {
    assert (p + q)[0] == p[0] && (p + q)[1..] == p[1..] + q;
    ScoredStep(sqrt, target, targetVector, p + q);
    ScoredStep(sqrt, target, targetVector, p);
    Regroup(Scored(sqrt, target, targetVector, p + q), Scored(sqrt, target, targetVector, [p[0]]),
            Scored(sqrt, target, targetVector, p[1..] + q), Scored(sqrt, target, targetVector, p[1..]),
            Scored(sqrt, target, targetVector, q), Scored(sqrt, target, targetVector, p));
  }

  lemma Regroup(all: seq<Recommendation>, head: seq<Recommendation>, tail: seq<Recommendation>,
                mid: seq<Recommendation>, last: seq<Recommendation>, first: seq<Recommendation>)
    requires all == head + tail && tail == mid + last && first == head + mid
    ensures all == first + last
  {
  }

  /** The first snack's contribution comes first. */
  lemma ScoredStep(sqrt: real -> real, target: Snack, targetVector: seq<real>, pool: seq<Snack>)
    requires IsSqrt(sqrt) && pool != []
    ensures Scored(sqrt, target, targetVector, pool) ==
              Scored(sqrt, target, targetVector, [pool[0]]) + Scored(sqrt, target, targetVector, pool[1..])
  {
    assert [pool[0]][1..] == [];
  }

  /** One snack contributes its record when it has one, and nothing otherwise. */
  lemma ScoredOne(sqrt: real -> real, target: Snack, targetVector: seq<real>, s: Snack)
    requires IsSqrt(sqrt)
    ensures Scored(sqrt, target, targetVector, [s]) ==
              match ScoreCandidate(sqrt, target, targetVector, s) case None => [] case Some(x) => [x]
  {
    assert [s][1..] == [];
  }

  /** The threshold filter works piece by piece too, so it keeps order. */
  lemma {:induction false} AboveThresholdAppend(xs: seq<Recommendation>, ys: seq<Recommendation>)
    ensures AboveThreshold(xs + ys) == AboveThreshold(xs) + AboveThreshold(ys)
  {
    if xs == [] {
      assert xs + ys == ys;
    } else {
      assert (xs + ys)[0] == xs[0] && (xs + ys)[1..] == xs[1..] + ys;
      AboveThresholdAppend(xs[1..], ys);
    }
  }

  /** The candidates that pass the threshold, in pool order: what is sorted
      and cut to five. */
  function Qualifying(sqrt: real -> real, target: Snack, pool: seq<Snack>): seq<Recommendation>
    requires IsSqrt(sqrt) && target.vector.Some?
  {
    AboveThreshold(Scored(sqrt, target, target.vector.value, pool))
  }

  /** The qualifying candidates of a concatenated pool are those of the
      first part followed by those of the second: the pool's order. */
  lemma QualifyingAppend(sqrt: real -> real, target: Snack, p: seq<Snack>, q: seq<Snack>)
    requires IsSqrt(sqrt) && target.vector.Some?
    ensures Qualifying(sqrt, target, p + q) == Qualifying(sqrt, target, p) + Qualifying(sqrt, target, q)
  {
    var tv := target.vector.value;
    ScoredAppend(sqrt, target, tv, p, q);
    AboveThresholdAppend(Scored(sqrt, target, tv, p), Scored(sqrt, target, tv, q));
  }

  /** One snack qualifies with its scored record when it is scored and
      reaches the threshold. */
  lemma QualifyingOne(sqrt: real -> real, target: Snack, s: Snack)
    requires IsSqrt(sqrt) && target.vector.Some?
    ensures Qualifying(sqrt, target, [s]) ==
              match ScoreCandidate(sqrt, target, target.vector.value, s)
              case Some(x) => if x.score >= SimilarityThreshold then [x] else []
              case None => []
  {
    ScoredOne(sqrt, target, target.vector.value, s);
    var one := Scored(sqrt, target, target.vector.value, [s]);
    if one != [] {
      assert one[1..] == [];
    }
  }

  /** `getRecommendations(snackName)`; `Success(rs)` is `{ recommendations: rs }`. */
  function GetRecommendations(sqrt: real -> real, snackName: Option<string>, catalog: seq<Snack>): (r: Result<seq<Recommendation>, RecommendationError>)
    requires IsSqrt(sqrt)
    ensures Falsy(snackName) ==> r == Failure(InvalidSnackName)
    ensures !Falsy(snackName) && (forall s | s in catalog :: s.name != snackName.value) ==>
              r == Failure(SnackNotFound(snackName.value))
    ensures !Falsy(snackName) && FindByName(catalog, snackName.value).Some? && FindByName(catalog, snackName.value).value.vector.None? ==>
              r == Failure(InvalidEmbedding(snackName.value))
    ensures r.Success? <==>
              !Falsy(snackName) && FindByName(catalog, snackName.value).Some? && FindByName(catalog, snackName.value).value.vector.Some?
    ensures r.Success? && FindAllExcept(catalog, snackName.value) == [] ==> r.value == []
  {
    if Falsy(snackName) then Failure(InvalidSnackName)
    else
      var name := snackName.value;
      match FindByName(catalog, name)
      case None => Failure(SnackNotFound(name))
      case Some(snack) =>
        if snack.vector.None? then Failure(InvalidEmbedding(name))
        else
          var allSnacks := FindAllExcept(catalog, name);
          if |allSnacks| == 0 then Success([])
          else Success(Take(SortByScore(Qualifying(sqrt, snack, allSnacks)), MaxRecommendations))
  }

  /** The recommendations of a successful request are the first five of the
      qualifying candidates sorted by score. */
  lemma SuccessIsTopFive(sqrt: real -> real, snackName: Option<string>, catalog: seq<Snack>)
    requires IsSqrt(sqrt)
    requires GetRecommendations(sqrt, snackName, catalog).Success?
    ensures var target := FindByName(catalog, snackName.value).value;
            GetRecommendations(sqrt, snackName, catalog).value ==
              Take(SortByScore(Qualifying(sqrt, target, FindAllExcept(catalog, snackName.value))), MaxRecommendations)
  {
  }

  /** What a qualifying candidate is: the score of some pool member that
      reaches the threshold. */
  lemma QualifyingProvenance(sqrt: real -> real, target: Snack, pool: seq<Snack>, x: Recommendation)
    requires IsSqrt(sqrt) && target.vector.Some?
    requires x in multiset(Qualifying(sqrt, target, pool))
    ensures SimilarityThreshold <= x.score <= 1.0
    ensures exists s | s in pool :: ScoreCandidate(sqrt, target, target.vector.value, s) == Some(x)
  {
    var scored := Scored(sqrt, target, target.vector.value, pool);
    ScoredMembers(sqrt, target, target.vector.value, pool);
    assert x in multiset(scored);
    var s :| s in pool && ScoreCandidate(sqrt, target, target.vector.value, s) == Some(x);
  }

  /** Every recommendation scores in [0.6, 1.0], there are at most five, in
      non-increasing score order, and each comes from a stored snack other
      than the target, with that snack's name. */
  lemma RecommendationsBounded(sqrt: real -> real, snackName: Option<string>, catalog: seq<Snack>)
    requires IsSqrt(sqrt)
    requires GetRecommendations(sqrt, snackName, catalog).Success?
    ensures var out := GetRecommendations(sqrt, snackName, catalog).value;
            && |out| <= MaxRecommendations
            && SortedByScore(out)
            && (forall x | x in out :: SimilarityThreshold <= x.score <= 1.0)
            && (forall x | x in out :: exists s | s in catalog :: s.name != snackName.value && s.name == x.name)
  {
    var name := snackName.value;
    var target := FindByName(catalog, name).value;
    var pool := FindAllExcept(catalog, name);
    var q := Qualifying(sqrt, target, pool);
    var sorted := SortByScore(q);
    var out := GetRecommendations(sqrt, snackName, catalog).value;
    SuccessIsTopFive(sqrt, snackName, catalog);
    assert out == Take(sorted, MaxRecommendations);
    TopK(sorted, MaxRecommendations);
    forall x | x in out
      ensures SimilarityThreshold <= x.score <= 1.0
      ensures exists s | s in catalog :: s.name != name && s.name == x.name
    {
      assert x in multiset(out);
      QualifyingProvenance(sqrt, target, pool, x);
      var s :| s in pool && ScoreCandidate(sqrt, target, target.vector.value, s) == Some(x);
      assert s in catalog && s.name != name;
    }
  }

  /** Top five: a qualifying candidate that is left out scores no higher
      than any recommendation; when fewer than five qualify, all of them are
      returned. */
  lemma RecommendationsAreBest(sqrt: real -> real, snackName: Option<string>, catalog: seq<Snack>)
    requires IsSqrt(sqrt)
    requires GetRecommendations(sqrt, snackName, catalog).Success?
    ensures var target := FindByName(catalog, snackName.value).value;
            var q := Qualifying(sqrt, target, FindAllExcept(catalog, snackName.value));
            var out := GetRecommendations(sqrt, snackName, catalog).value;
            && |out| == (if |q| < MaxRecommendations then |q| else MaxRecommendations)
            && multiset(out) <= multiset(q)
            && (forall x, y | x in multiset(q) - multiset(out) && y in out :: x.score <= y.score)
  {
    var target := FindByName(catalog, snackName.value).value;
    var q := Qualifying(sqrt, target, FindAllExcept(catalog, snackName.value));
    SuccessIsTopFive(sqrt, snackName, catalog);
    TopK(SortByScore(q), MaxRecommendations);
  }

  /** Ties keep pool order: for every score, the recommendations with that
      score are the first ones, in pool order, of the qualifying candidates
      with that score. */
  lemma RecommendationsKeepPoolOrder(sqrt: real -> real, snackName: Option<string>, catalog: seq<Snack>, v: real)
    requires IsSqrt(sqrt)
    requires GetRecommendations(sqrt, snackName, catalog).Success?
    ensures var target := FindByName(catalog, snackName.value).value;
            var q := Qualifying(sqrt, target, FindAllExcept(catalog, snackName.value));
            var tied := WithScore(GetRecommendations(sqrt, snackName, catalog).value, v);
            |tied| <= |WithScore(q, v)| && tied == WithScore(q, v)[..|tied|]
  {
    var target := FindByName(catalog, snackName.value).value;
    var q := Qualifying(sqrt, target, FindAllExcept(catalog, snackName.value));
    SuccessIsTopFive(sqrt, snackName, catalog);
    TopKKeepsTies(q, MaxRecommendations, v);
  }

  /** A candidate is kept exactly when its boosted, capped score reaches the
      threshold; the raw cosine is not what is compared. */
  lemma ThresholdOnBoostedScore(sqrt: real -> real, target: Snack, s: Snack, pool: seq<Snack>)
    requires IsSqrt(sqrt) && target.vector.Some? && s in pool
    requires ScoreCandidate(sqrt, target, target.vector.value, s).Some?
    ensures var x := ScoreCandidate(sqrt, target, target.vector.value, s).value;
            x in Qualifying(sqrt, target, pool) <==> x.score >= SimilarityThreshold
  {
    var x := ScoreCandidate(sqrt, target, target.vector.value, s).value;
    var scored := Scored(sqrt, target, target.vector.value, pool);
    ScoredMembers(sqrt, target, target.vector.value, pool);
    assert x in multiset(scored);
  }

  /** A same-category candidate with cosine 0.5 is boosted to exactly 0.6 and
      kept; the same vector in another category scores 0.5 and is dropped. */
  lemma BoostLiftsOverThreshold(sqrt: real -> real)
    requires IsSqrt(sqrt)
    ensures var target := Snack("Momo", Some("Street Food"), None, Some([1.0, 0.0, 0.0, 0.0]));
            var same := Snack("Sel Roti", Some("Street Food"), None, Some([1.0, 1.0, 1.0, 1.0]));
            var other := Snack("Yomari", Some("Dessert"), None, Some([1.0, 1.0, 1.0, 1.0]));
            && ScoreCandidate(sqrt, target, target.vector.value, same) == Some(Recommendation("Sel Roti", FallbackEmoji, "Street Food", 0.6))
            && ScoreCandidate(sqrt, target, target.vector.value, other) == Some(Recommendation("Yomari", FallbackEmoji, "Dessert", 0.5))
            && Qualifying(sqrt, target, [same, other]) == [Recommendation("Sel Roti", FallbackEmoji, "Street Food", 0.6)]
  {
    CosineOneHalf(sqrt);
    var target := Snack("Momo", Some("Street Food"), None, Some([1.0, 0.0, 0.0, 0.0]));
    var same := Snack("Sel Roti", Some("Street Food"), None, Some([1.0, 1.0, 1.0, 1.0]));
    var other := Snack("Yomari", Some("Dessert"), None, Some([1.0, 1.0, 1.0, 1.0]));
    var x := Recommendation("Sel Roti", FallbackEmoji, "Street Food", 0.6);
    var y := Recommendation("Yomari", FallbackEmoji, "Dessert", 0.5);
    assert ScoreCandidate(sqrt, target, target.vector.value, same) == Some(x);
    assert ScoreCandidate(sqrt, target, target.vector.value, other) == Some(y);
    assert [same, other][1..] == [other];
    assert Scored(sqrt, target, target.vector.value, [other]) == [y];
    assert Scored(sqrt, target, target.vector.value, [same, other]) == [x, y];
    assert [x, y][1..] == [y];
    assert AboveThreshold([y]) == [];
  }

  /** An empty target vector is accepted (an empty array is truthy), but
      every candidate's similarity then throws, so nothing is recommended. */
  lemma EmptyTargetVectorRecommendsNothing(sqrt: real -> real, name: string, catalog: seq<Snack>)
    requires IsSqrt(sqrt)
    requires FindByName(catalog, name).Some? && FindByName(catalog, name).value.vector == Some([])
    ensures GetRecommendations(sqrt, Some(name), catalog) == (if name == "" then Failure(InvalidSnackName) else Success([]))
  {
    if name != "" {
      var target := FindByName(catalog, name).value;
      var pool := FindAllExcept(catalog, name);
      var scored := Scored(sqrt, target, [], pool);
      ScoredMembers(sqrt, target, [], pool);
      if scored != [] {
        var s :| s in pool && ScoreCandidate(sqrt, target, [], s) == Some(scored[0]);
      }
      assert Qualifying(sqrt, target, pool) == [];
    }
  }

  /** A candidate and a target that both lack a category count as the same
      category, so the candidate is boosted, yet it is shown as "Street Food". */
  lemma MissingCategoriesMatch(sqrt: real -> real, target: Snack, s: Snack)
    requires IsSqrt(sqrt) && target.vector.Some?
    requires target.category.None? && s.category.None?
    requires ScoreCandidate(sqrt, target, target.vector.value, s).Some?
    ensures var x := ScoreCandidate(sqrt, target, target.vector.value, s).value;
            var cos := Cosine(sqrt, target.vector.value, s.vector.value);
            && x.category == DefaultCategory
            && x.score == (if cos + CategoryBoost <= 1.0 then cos + CategoryBoost else 1.0)
  {
  }

  /** Scoring in the worked request below: X is boosted past 1.0 and capped,
      Y scores its raw cosine 0 and falls below the threshold. */
  lemma WorkedScores(sqrt: real -> real, t: Snack, x: Snack, y: Snack)
    requires IsSqrt(sqrt)
    requires t == Snack("T", Some("A"), None, Some([1.0, 0.0]))
    requires x == Snack("X", Some("A"), None, Some([1.0, 0.0]))
    requires y == Snack("Y", Some("B"), None, Some([0.0, 1.0]))
    ensures Qualifying(sqrt, t, [x, y]) == [Recommendation("X", FallbackEmoji, "A", 1.0)]
  {
    UnitCosines(sqrt);
    var e := t.vector.value;
    var rx := Recommendation("X", FallbackEmoji, "A", 1.0);
    var ry := Recommendation("Y", FallbackEmoji, "B", 0.0);
    assert ScoreCandidate(sqrt, t, e, x) == Some(rx);
    assert ScoreCandidate(sqrt, t, e, y) == Some(ry);
    assert [x, y][1..] == [y];
    assert Scored(sqrt, t, e, [y]) == [ry];
    assert Scored(sqrt, t, e, [x, y]) == [rx, ry];
    assert [rx, ry][1..] == [ry];
    assert AboveThreshold([ry]) == [];
  }

  /** The lookups in the worked request below. */
  lemma WorkedLookups(catalog: seq<Snack>, t: Snack, x: Snack, y: Snack)
    requires t.name == "T" && x.name == "X" && y.name == "Y" && catalog == [t, x, y]
    ensures FindByName(catalog, "T") == Some(t)
    ensures FindAllExcept(catalog, "T") == [x, y]
  {
    assert catalog[1..] == [x, y] && [x, y][1..] == [y];
    assert [y][1..] == [];
  }

  /** A worked request: target [1, 0] in "A"; X = [1, 0] in "A" has cosine 1,
      boosted to 1.1 and capped to 1.0; Y = [0, 1] in "B" has cosine 0 and
      falls below the threshold. */
  lemma WorkedExample(sqrt: real -> real)
    requires IsSqrt(sqrt)
    ensures var catalog := [
              Snack("T", Some("A"), None, Some([1.0, 0.0])),
              Snack("X", Some("A"), None, Some([1.0, 0.0])),
              Snack("Y", Some("B"), None, Some([0.0, 1.0]))];
            GetRecommendations(sqrt, Some("T"), catalog) == Success([Recommendation("X", FallbackEmoji, "A", 1.0)])
  {
    var t := Snack("T", Some("A"), None, Some([1.0, 0.0]));
    var x := Snack("X", Some("A"), None, Some([1.0, 0.0]));
    var y := Snack("Y", Some("B"), None, Some([0.0, 1.0]));
    var catalog := [t, x, y];
    var rx := Recommendation("X", FallbackEmoji, "A", 1.0);
    WorkedScores(sqrt, t, x, y);
    WorkedLookups(catalog, t, x, y);
    assert SortByScore([rx]) == [rx];
    assert Take([rx], MaxRecommendations) == [rx];
  }
}

=== FILE: server_preferences.dfy ===
/** The server-side copy of the liked-snacks functions
    (src/utils/userPreferences.js): the same read-change-write steps with no
    return codes and no joined string. Under Node there is no
    `localStorage`, so every access throws and is caught. */
module ServerPreferences {
  import opened LikedSnacks

  /** `likeSnack(snackName)`. */
  method LikeSnack(st: LocalStorage, snackName: string)
    modifies st
    ensures st.readable == old(st.readable) && st.writable == old(st.writable)
    ensures st.writable ==> st.item == Names(Add(old(GetLikedSnacks(st)), snackName))
    ensures !st.writable ==> st.item == old(st.item)
    ensures st.writable && st.readable ==> IsLiked(st, snackName)
    ensures st.writable && st.readable ==> forall m | m != snackName :: IsLiked(st, m) == old(IsLiked(st, m))
  {
    var liked := GetLikedSnacks(st);
    liked := Add(liked, snackName);
    if st.writable {
      st.item := Names(liked);
    }
  }

  /** `unlikeSnack(snackName)`. */
  method UnlikeSnack(st: LocalStorage, snackName: string)
    modifies st
    ensures st.readable == old(st.readable) && st.writable == old(st.writable)
    ensures st.writable ==> st.item == Names(Remove(old(GetLikedSnacks(st)), snackName))
    ensures !st.writable ==> st.item == old(st.item)
    ensures st.writable ==> !IsLiked(st, snackName)
    ensures st.writable && st.readable ==> forall m | m != snackName :: IsLiked(st, m) == old(IsLiked(st, m))
  {
    var liked := GetLikedSnacks(st);
    liked := Remove(liked, snackName);
    if st.writable {
      st.item := Names(liked);
    }
  }

  /** Node: `localStorage` is not defined, so both accesses throw. */
  predicate InNode(st: LocalStorage)
    reads st
  {
    !st.readable && !st.writable
  }

  /** Under Node nothing is ever liked, whatever the entry holds. */
  lemma NodeHasNoLikes(st: LocalStorage)
    requires InNode(st)
    ensures GetLikedSnacks(st) == []
    ensures forall n :: !IsLiked(st, n)
  {
  }
}

=== FILE: snack_validator.dfy ===
/** The checks run before a snack is added (src/utils/snackValidator.js).
    The repository's `exists(name)` query is membership in `existing`, the
    set of stored names. */
module SnackValidator {
  import opened Wrappers
  import opened JsValues
  import opened Validation
  import opened Constants

  /** The errors the validators throw. */
  datatype ValidationError =
    | InvalidName                 // "Snack name is required and must be a valid string"
    | AlreadyExists(name: string) // "Snack '<name>' already exists"
    | InvalidCategory             // "Invalid category. Must be one of: ..."
    | DescriptionRequired         // "Description is required"

  /** The fields `validateSnackData` reads from its argument. The category
      keeps its JavaScript type, since a truthy non-string is rejected. */
  datatype SnackData = SnackData(name: Option<string>, category: JsArg, description: Option<string>)

  /** `validateSnackName(name)`: the name must be valid, and the name as
      given, untrimmed, must not be stored yet. */
  function ValidateSnackName(name: Option<string>, existing: set<string>): (r: Outcome<ValidationError>)
    ensures !IsValidSnackName(name) ==> r == Fail(InvalidName)
    ensures IsValidSnackName(name) && name.value in existing ==> r == Fail(AlreadyExists(name.value))
    ensures r.Pass? <==> IsValidSnackName(name) && name.value !in existing
  {
    if !IsValidSnackName(name) then Fail(InvalidName)
    else if name.value in existing then Fail(AlreadyExists(name.value))
    else Pass
  }

  /** `validateCategory(category)`: a truthy category outside
      `VALID_CATEGORIES` is rejected. */
  function ValidateCategory(category: JsArg): (r: Outcome<ValidationError>)
    ensures r.Pass? <==> IsValidCategory(category)
    ensures r.Fail? ==> r.error == InvalidCategory
    ensures ArgFalsy(category) ==> r.Pass?
  {
    if !ArgFalsy(category) && !IsValidCategory(category) then Fail(InvalidCategory) else Pass
  }

  /** A truthy category that is not a string, such as a number in the
      request body, is rejected; a falsy one is ignored. */
  lemma NonStringCategory()
    ensures ValidateCategory(NonString(true)) == Fail(InvalidCategory)
    ensures ValidateCategory(NonString(false)) == Pass
    ensures ValidateCategory(Str("Snack")) == Fail(InvalidCategory)
  {
    assert "Snack" !in ValidCategories;
  }

  /** The description check: a string with a non-whitespace code point. */
  function HasDescription(description: Option<string>): (r: bool)
    ensures r <==> description.Some? && !AllWhitespace(description.value)
  {
    !Falsy(description) && |Trim(description.value)| != 0
  }

  /** `validateSnackData(snackData, requireDescription)`: name, then
      category, then (when required) description; the first failing check
      is the error. */
  function ValidateSnackData(data: SnackData, requireDescription: bool, existing: set<string>): (r: Outcome<ValidationError>)
    ensures ValidateSnackName(data.name, existing).Fail? ==> r == ValidateSnackName(data.name, existing)
    ensures ValidateSnackName(data.name, existing).Pass? && !IsValidCategory(data.category) ==> r == Fail(InvalidCategory)
    ensures (ValidateSnackName(data.name, existing).Pass? && IsValidCategory(data.category) && requireDescription &&
             !HasDescription(data.description)) ==> r == Fail(DescriptionRequired)
    ensures r.Pass? <==>
              && ValidateSnackName(data.name, existing).Pass?
              && IsValidCategory(data.category)
              && (requireDescription ==> HasDescription(data.description))
  {
    var name := ValidateSnackName(data.name, existing);
    if name.Fail? then name
    else if ValidateCategory(data.category).Fail? then Fail(InvalidCategory)
    else if requireDescription && !HasDescription(data.description) then Fail(DescriptionRequired)
    else Pass
  }

  /** A snack passes exactly when its name is valid and new, its category
      is falsy or known, and, when a description is required, the
      description has a non-whitespace code point. */
  lemma ValidateSnackDataPasses(data: SnackData, requireDescription: bool, existing: set<string>)
    ensures ValidateSnackData(data, requireDescription, existing).Pass? <==>
              && data.name.Some? && !AllWhitespace(data.name.value) && Utf16Length(Trim(data.name.value)) <= 100
              && data.name.value !in existing
              && (data.category.Missing? || (data.category.NonString? && !data.category.truthy) ||
                  (data.category.Str? && data.category.value in {"", "Street Food", "Traditional Meal", "Dessert", "Other"}))
              && (requireDescription ==> data.description.Some? && !AllWhitespace(data.description.value))
  {
  }

  /** Requiring a description only adds a check. */
  lemma DescriptionOnlyNarrows(data: SnackData, existing: set<string>)
    ensures ValidateSnackData(data, true, existing).Pass? ==> ValidateSnackData(data, false, existing).Pass?
    ensures ValidateSnackData(data, false, existing).Fail? ==>
              ValidateSnackData(data, true, existing) == ValidateSnackData(data, false, existing)
  {
  }

  /** The existence check sees the name untrimmed: " Momo" passes while
      "Momo" is stored, although its trimmed form is that stored name. */
  lemma UntrimmedNamePassesExistenceCheck()
    ensures ValidateSnackName(Some(" Momo"), {"Momo"}) == Pass
    ensures Trim(" Momo") == "Momo"
  {
    var s := " Momo";
    assert IsWhitespace(s[0]) && s[1..] == "Momo";
    assert TrimStart("Momo") == "Momo" by { assert !IsWhitespace("Momo"[0]); }
    assert TrimStart(s) == "Momo";
    assert TrimEnd("Momo") == "Momo" by { assert !IsWhitespace("Momo"[3]); }
  }
}

=== FILE: validation.dfy ===
/** Input checks for new snacks and emoji extraction (src/utils/validation.js). */
module Validation {
  import opened Wrappers
  import opened JsValues
  import opened Constants
  import opened VectorMath

  /** `isValidSnackName(name)`: a string with at least one non-whitespace
      code point whose trimmed length, in UTF-16 code units, is at most 100. */
  function IsValidSnackName(name: Option<string>): (r: bool)
    ensures r ==> name.Some? && !AllWhitespace(name.value)
    ensures name.Some? && !AllWhitespace(name.value) && Utf16Length(name.value) <= 100 ==> r
    ensures r <==> name.Some? && !AllWhitespace(name.value) && Utf16Length(Trim(name.value)) <= 100
  {
    if name.None? then false
    else
      Utf16LengthTrim(name.value);
      |Trim(name.value)| > 0 && Utf16Length(Trim(name.value)) <= 100
  }

  /** Validity only looks at the trimmed name: a name and its trimmed form
      are valid together. */
  lemma ValidityIgnoresSurroundingWhitespace(s: string)
    ensures IsValidSnackName(Some(s)) == IsValidSnackName(Some(Trim(s)))
  {
    TrimIdempotent(s);
  }

  /** A name that starts and ends with non-whitespace is valid exactly
      when it has at most 100 code units. */
  lemma UntrimmedNameLimit(s: string)
    requires s != [] && !IsWhitespace(s[0]) && !IsWhitespace(s[|s| - 1])
    ensures IsValidSnackName(Some(s)) <==> Utf16Length(s) <= 100
  {
    TrimKeeps(s);
  }

  /** The limit counts code units: 99 letters and a dumpling emoji are 100
      code points but 101 code units, and are rejected; 100 letters pass. */
  lemma LimitCountsCodeUnits()
    ensures var letters := seq(99, _ => 'a');
            && |letters + "\U{1F95F}"| == 100
            && !IsValidSnackName(Some(letters + "\U{1F95F}"))
            && IsValidSnackName(Some(letters + "a"))
  {
    var letters := seq(99, _ => 'a');
    var s := letters + "\U{1F95F}";
    var t := letters + "a";
    assert s[0] == 'a' && s[99] == '\U{1F95F}' && t[0] == 'a' && t[99] == 'a';
    UntrimmedNameLimit(s);
    UntrimmedNameLimit(t);
    Utf16LengthBasic(letters);
    Utf16LengthBasic(t);
    Utf16LengthAppend(letters, "\U{1F95F}");
    assert Utf16Length("\U{1F95F}") == 2;
  }

  /** `isValidCategory(category)`: falsy, or one of `VALID_CATEGORIES`; a
      truthy value that is not a string is never one of them. */
  function IsValidCategory(category: JsArg): (r: bool)
    ensures category.Missing? ==> r
    ensures category.NonString? ==> (r <==> !category.truthy)
    ensures category.Str? ==> (r <==> category.value in {"", "Street Food", "Traditional Meal", "Dessert", "Other"})
  {
    ArgFalsy(category) || (category.Str? && category.value in ValidCategories)
  }

  /** An element of the array handed to `isValidVector`, by its JavaScript type. */
  datatype JsElement = Number(x: real) | Infinity(positive: bool) | NaN | NotNumber

  /** `typeof v === "number" && !isNaN(v)`. */
  predicate IsNumberNotNaN(e: JsElement) {
    e.Number? || e.Infinity?
  }

  /** `isValidVector(vector)`: a non-empty array of numbers none of which is
      NaN; infinities are accepted. `None` is a value that is not an array. */
  function IsValidVector(vector: Option<seq<JsElement>>): (r: bool)
    ensures r ==> vector.Some? && |vector.value| > 0
    ensures vector.Some? ==> (r <==> |vector.value| > 0 && forall e | e in vector.value :: !e.NaN? && !e.NotNumber?)
  {
    vector.Some? && |vector.value| > 0 && forall i | 0 <= i < |vector.value| :: IsNumberNotNaN(vector.value[i])
  }

  /** The reals of a vector whose elements are all finite numbers. */
  function Reals(v: seq<JsElement>): (r: seq<real>)
    requires forall e | e in v :: e.Number?
    ensures |r| == |v| && forall i | 0 <= i < |v| :: r[i] == v[i].x
  {
    if v == [] then [] else [v[0].x] + Reals(v[1..])
  }

  /** A valid vector of finite numbers never makes `cosineSimilarity` throw
      when compared with itself or with another one of its length. */
  lemma ValidVectorIsComparable(sqrt: real -> real, v: seq<JsElement>, w: seq<JsElement>)
    requires IsSqrt(sqrt)
    requires IsValidVector(Some(v)) && IsValidVector(Some(w)) && |v| == |w|
    requires forall e | e in v :: e.Number?
    requires forall e | e in w :: e.Number?
    ensures CosineSimilarity(sqrt, Some(Reals(v)), Some(Reals(w))).Success?
    ensures -1.0 <= CosineSimilarity(sqrt, Some(Reals(v)), Some(Reals(w))).value <= 1.0
  {
  }

  /** Infinity passes the check and NaN does not. */
  lemma InfinityAcceptedNaNRejected()
    ensures IsValidVector(Some([Number(0.5), Infinity(true)]))
    ensures !IsValidVector(Some([Number(0.5), NaN]))
    ensures !IsValidVector(Some([]))
  {
    assert [Number(0.5), NaN][1].NaN?;
  }

  /** The code points the regular expression `/[\u{1F300}-\u{1FAFF}]/u` matches. */
  predicate InEmojiRange(c: char) {
    '\U{1F300}' <= c <= '\U{1FAFF}'
  }

  /** The position of the leftmost code point in the emoji range. */
  function FirstEmojiIndex(s: string): (r: Option<nat>)
    ensures r.None? <==> forall k | 0 <= k < |s| :: !InEmojiRange(s[k])
    ensures r.Some? ==> r.value < |s| && InEmojiRange(s[r.value]) && forall k | 0 <= k < r.value :: !InEmojiRange(s[k])
  {
    if s == [] then None
    else if InEmojiRange(s[0]) then Some(0)
    else
      match FirstEmojiIndex(s[1..])
      case None => None
      case Some(i) => Some(i + 1)
  }

  /** The `defaultEmojis[category] || defaultEmojis.Other` lookup. */
  function CategoryEmoji(category: string): (e: string)
    ensures category == "Dessert" ==> e == "\U{1F36C}"
    ensures category == "Street Food" ==> e == "\U{1F95F}"
    ensures category == "Traditional Meal" ==> e == "\U{1F372}"
    ensures category !in {"Dessert", "Street Food", "Traditional Meal"} ==> e == "\U{1F374}"
  {
    if category == "Dessert" then "\U{1F36C}"
    else if category == "Street Food" then "\U{1F95F}"
    else if category == "Traditional Meal" then "\U{1F372}"
    else "\U{1F374}"
  }

  /** `extractOrDefaultEmoji(text, category)`: the leftmost emoji-range code
      point of the text, else the category's default emoji. `None` for
      `text` is a value that is not a string; `None` for `category` is an
      omitted argument, which takes the default "Street Food". */
  function ExtractOrDefaultEmoji(text: Option<string>, category: Option<string>): (r: string)
    ensures |r| == 1 && InEmojiRange(r[0])
    ensures text.Some? && (exists k | 0 <= k < |text.value| :: InEmojiRange(text.value[k])) ==>
              exists i | 0 <= i < |text.value| :: r == [text.value[i]] && forall k | 0 <= k < i :: !InEmojiRange(text.value[k])
    ensures (text.None? || forall k | 0 <= k < |text.value| :: !InEmojiRange(text.value[k])) ==>
              r == CategoryEmoji(category.GetOr(DefaultCategory))
  {
    var found := if text.Some? then FirstEmojiIndex(text.value) else None;
    if found.Some? then [text.value[found.value]]
    else CategoryEmoji(category.GetOr(DefaultCategory))
  }

  /** With no category argument, emoji-free text gets the dumpling. */
  lemma NoCategoryMeansStreetFood(text: string)
    requires forall k | 0 <= k < |text| :: !InEmojiRange(text[k])
    ensures ExtractOrDefaultEmoji(Some(text), None) == "\U{1F95F}"
  {
  }

  /** The result is itself an emoji, so extracting again from it returns it
      whatever the category. */
  lemma ExtractIdempotent(text: Option<string>, category: Option<string>, category2: Option<string>)
    ensures var e := ExtractOrDefaultEmoji(text, category);
            ExtractOrDefaultEmoji(Some(e), category2) == e
  {
    var e := ExtractOrDefaultEmoji(text, category);
    assert InEmojiRange(e[0]);
  }
}

=== FILE: vector_math.dfy ===
/** Cosine similarity of two embedding vectors (src/utils/math.js), over
    the reals. `Math.sqrt` is a parameter: any function that gives the
    non-negative square root of a non-negative real. */
module VectorMath {
  import opened Wrappers

  /** The three errors `cosineSimilarity` throws. */
  datatype CosineError = NotArrays | LengthMismatch(lengthA: nat, lengthB: nat) | EmptyVectors

  /** `sqrt` behaves as `Math.sqrt` does over the reals. */
  ghost predicate IsSqrt(sqrt: real -> real) {
    forall x :: 0.0 <= x ==> 0.0 <= sqrt(x) && sqrt(x) * sqrt(x) == x
  }

  /** `a.reduce((sum, x, i) => sum + x * b[i], 0)`: a left fold, so the last
      pair is added last. */
  function Dot(a: seq<real>, b: seq<real>): real
    requires |a| == |b|
  {
    if |a| == 0 then 0.0 else Dot(a[..|a| - 1], b[..|b| - 1]) + a[|a| - 1] * b[|b| - 1]
  }

  /** Appending one pair adds its product: the step of the fold. */
  lemma DotSnoc(a: seq<real>, b: seq<real>, x: real, y: real)
    requires |a| == |b|
    ensures Dot(a + [x], b + [y]) == Dot(a, b) + x * y
  {
    assert (a + [x])[..|a|] == a;
    assert (b + [y])[..|b|] == b;
  }

  predicate IsZeroVector(a: seq<real>) {
    forall i | 0 <= i < |a| :: a[i] == 0.0
  }

  /** `cosineSimilarity(vecA, vecB)`; `None` is an argument that is not an array. */
  function CosineSimilarity(sqrt: real -> real, a: Option<seq<real>>, b: Option<seq<real>>): (r: Result<real, CosineError>)
    requires IsSqrt(sqrt)
    ensures a.None? || b.None? ==> r == Failure(NotArrays)
    ensures a.Some? && b.Some? && |a.value| != |b.value| ==> r == Failure(LengthMismatch(|a.value|, |b.value|))
    ensures a.Some? && b.Some? && |a.value| == |b.value| == 0 ==> r == Failure(EmptyVectors)
    ensures r.Success? <==> a.Some? && b.Some? && |a.value| == |b.value| > 0
    ensures r.Success? ==> -1.0 <= r.value <= 1.0
    ensures r.Success? && (IsZeroVector(a.value) || IsZeroVector(b.value)) ==> r.value == 0.0
    ensures r.Success? && !IsZeroVector(a.value) && !IsZeroVector(b.value) ==>
              r.value * (sqrt(Dot(a.value, a.value)) * sqrt(Dot(b.value, b.value))) == Dot(a.value, b.value)
  {
    if a.None? || b.None? then Failure(NotArrays)
    else if |a.value| != |b.value| then Failure(LengthMismatch(|a.value|, |b.value|))
    else if |a.value| == 0 then Failure(EmptyVectors)
    else Success(Cosine(sqrt, a.value, b.value))
  }

  /** The arithmetic of `cosineSimilarity` once its guards have passed:
      `dot / (magA * magB)`, or 0 when either magnitude is 0. */
  function Cosine(sqrt: real -> real, a: seq<real>, b: seq<real>): (c: real)
    requires IsSqrt(sqrt) && |a| == |b|
    ensures -1.0 <= c <= 1.0
    ensures IsZeroVector(a) || IsZeroVector(b) ==> c == 0.0
    ensures !IsZeroVector(a) && !IsZeroVector(b) ==> c * (sqrt(Dot(a, a)) * sqrt(Dot(b, b))) == Dot(a, b)
  {
    var na, nb := Dot(a, a), Dot(b, b);
    NormSquaredZero(a);
    NormSquaredZero(b);
    SqrtZero(sqrt, na);
    SqrtZero(sqrt, nb);
    var magA, magB := sqrt(na), sqrt(nb);
    if magA == 0.0 || magB == 0.0 then
      0.0
    else
      CauchySchwarz(a, b);
      CosineBound(Dot(a, b), magA, magB, na, nb);
      Dot(a, b) / (magA * magB)
  }

  lemma SqrtZero(sqrt: real -> real, x: real)
    requires IsSqrt(sqrt) && 0.0 <= x
    ensures sqrt(x) == 0.0 <==> x == 0.0
  {
    var s := sqrt(x);
    assert s * s == x;
    if x == 0.0 {
      ProductZero(s, s);
    }
  }

  /* Small facts of real arithmetic. Each takes two parameters even when it
     is used for a square: the solver handles a product of two names more
     reliably than the square of one. */

  lemma ProductZero(u: real, v: real)
    requires u * v == 0.0
    ensures u == 0.0 || v == 0.0
  {
  }

  lemma SameSignProduct(u: real, v: real)
    requires u > 0.0 ==> v > 0.0
    requires u < 0.0 ==> v < 0.0
    ensures u * v >= 0.0
    ensures u * v <= 0.0 ==> u == 0.0
  {
  }

  /** The squared norm is non-negative, and zero exactly for the zero vector. */
  lemma {:induction false} NormSquaredZero(a: seq<real>)
    ensures Dot(a, a) >= 0.0
    ensures Dot(a, a) == 0.0 <==> IsZeroVector(a)
  {
    if |a| > 0 {
      var p := a[..|a| - 1];
      var x := a[|a| - 1];
      NormSquaredZero(p);
      SameSignProduct(x, x);
      if Dot(a, a) == 0.0 {
        assert x == 0.0;
        forall i | 0 <= i < |a| ensures a[i] == 0.0 {
          if i < |a| - 1 { assert a[i] == p[i]; }
        }
      }
      if IsZeroVector(a) {
        assert IsZeroVector(p) by {
          forall i | 0 <= i < |p| ensures p[i] == 0.0 { assert p[i] == a[i]; }
        }
      }
    }
  }

  /** The dot product is symmetric. */
  lemma {:induction false} DotSymmetric(a: seq<real>, b: seq<real>)
    requires |a| == |b|
    ensures Dot(a, b) == Dot(b, a)
  {
    if |a| > 0 {
      DotSymmetric(a[..|a| - 1], b[..|b| - 1]);
    }
  }

  lemma PositiveProduct(u: real, v: real)
    requires u > 0.0 && v > 0.0
    ensures u * v > 0.0
  {
  }

  lemma CancelFactor(c: real, p: real)
    requires p != 0.0 && c * p == p
    ensures c == 1.0
  {
  }

  lemma ExpandQuadratic(A: real, B: real, D: real, x: real, y: real, u: real)
    requires u == A * y - D * x
    ensures A * (A * (y * y) + B * (x * x) - 2.0 * D * (x * y)) == u * u + (A * B - D * D) * (x * x)
  {
  }

  lemma NonNegativeProduct(u: real, v: real)
    requires u >= 0.0 && v >= 0.0
    ensures u * v >= 0.0
  {
  }

  lemma ProductsOrdered(u: real, v: real, w: real, z: real)
    requires 0.0 < u < v && 0.0 < w < z
    ensures u * w < v * z
  {
    assert u * w < v * w;
  }

  /** If A, B >= 0 and D*D <= A*B, the quadratic form A*y*y - 2*D*x*y + B*x*x
      is non-negative. */
  lemma QuadraticNonNegative(A: real, B: real, D: real, x: real, y: real)
    requires A >= 0.0 && B >= 0.0 && D * D <= A * B
    ensures A * (y * y) + B * (x * x) - 2.0 * D * (x * y) >= 0.0
  {
    var q := A * (y * y) + B * (x * x) - 2.0 * D * (x * y);
    SameSignProduct(x, x);
    if A > 0.0 {
      var u := A * y - D * x;
      SameSignProduct(u, u);
      NonNegativeProduct(A * B - D * D, x * x);
      ExpandQuadratic(A, B, D, x, y, u);
      if q < 0.0 {
        PositiveProduct(A, -q);
      }
    } else {
      assert D * D <= 0.0;
      SameSignProduct(D, D);
      NonNegativeProduct(B, x * x);
    }
  }

  /** Cauchy–Schwarz: dot(a, b)^2 <= |a|^2 * |b|^2. */
  lemma {:induction false} CauchySchwarz(a: seq<real>, b: seq<real>)
    requires |a| == |b|
    ensures Dot(a, b) * Dot(a, b) <= Dot(a, a) * Dot(b, b)
  {
    if |a| > 0 {
      var pa, pb := a[..|a| - 1], b[..|b| - 1];
      var x, y := a[|a| - 1], b[|b| - 1];
      CauchySchwarz(pa, pb);
      NormSquaredZero(pa);
      NormSquaredZero(pb);
      var A, B, D := Dot(pa, pa), Dot(pb, pb), Dot(pa, pb);
      QuadraticNonNegative(A, B, D, x, y);
      calc {
        (A + x * x) * (B + y * y) - (D + x * y) * (D + x * y);
      ==
        (A * B - D * D) + (A * (y * y) + B * (x * x) - 2.0 * D * (x * y));
      }
    }
  }

  /** A cosine built from magnitudes that are true square roots lies in [-1, 1]. */
  lemma CosineBound(dot: real, magA: real, magB: real, na: real, nb: real)
    requires magA > 0.0 && magB > 0.0
    requires magA * magA == na && magB * magB == nb
    requires dot * dot <= na * nb
    ensures -1.0 <= dot / (magA * magB) <= 1.0
  {
    var p := magA * magB;
    PositiveProduct(magA, magB);
    assert na * nb == p * p;
    var c := dot / p;
    assert c * p == dot;
    if c > 1.0 {
      PositiveProduct(c - 1.0, p);
      assert dot > p;
      ProductsOrdered(p, dot, p, dot);
    }
    if c < -1.0 {
      PositiveProduct(-c - 1.0, p);
      assert -dot > p;
      ProductsOrdered(p, -dot, p, -dot);
    }
  }

  /** The root of a square is its non-negative base. */
  lemma SqrtOfSquare(sqrt: real -> real, k: real)
    requires IsSqrt(sqrt) && k >= 0.0
    ensures sqrt(k * k) == k
  {
    var r := sqrt(k * k);
    assert r >= 0.0 && r * r == k * k;
    assert (r - k) * (r + k) == 0.0;
    ProductZero(r - k, r + k);
  }

  /** With norms known exactly, the cosine times their product is the dot product. */
  lemma CosineOfKnownNorms(sqrt: real -> real, a: seq<real>, b: seq<real>, ma: real, mb: real)
    requires IsSqrt(sqrt) && |a| == |b|
    requires ma > 0.0 && mb > 0.0 && Dot(a, a) == ma * ma && Dot(b, b) == mb * mb
    ensures Cosine(sqrt, a, b) * (ma * mb) == Dot(a, b)
  {
    PositiveProduct(ma, ma);
    PositiveProduct(mb, mb);
    NormSquaredZero(a);
    NormSquaredZero(b);
    SqrtOfSquare(sqrt, ma);
    SqrtOfSquare(sqrt, mb);
  }

  /** cosineSimilarity(a, b) == cosineSimilarity(b, a). */
  lemma CosineSymmetric(sqrt: real -> real, a: Option<seq<real>>, b: Option<seq<real>>)
    requires IsSqrt(sqrt)
    requires a.Some? && b.Some? && |a.value| == |b.value|
    ensures CosineSimilarity(sqrt, a, b) == CosineSimilarity(sqrt, b, a)
  {
    DotSymmetric(a.value, b.value);
    var ma, mb := sqrt(Dot(a.value, a.value)), sqrt(Dot(b.value, b.value));
    assert ma * mb == mb * ma;
  }

  /** A non-zero vector has similarity exactly 1 with itself; a zero vector has 0. */
  lemma SelfSimilarity(sqrt: real -> real, a: seq<real>)
    requires IsSqrt(sqrt) && |a| > 0
    ensures CosineSimilarity(sqrt, Some(a), Some(a)) == Success(if IsZeroVector(a) then 0.0 else 1.0)
  {
    NormSquaredZero(a);
    SqrtZero(sqrt, Dot(a, a));
    var m := sqrt(Dot(a, a));
    if !IsZeroVector(a) {
      var c := Cosine(sqrt, a, a);
      assert m * m == Dot(a, a);
      assert c * (m * m) == m * m;
      CancelFactor(c, m * m);
    }
  }

  /** The dot products behind `CosineOneHalf`. */
  lemma FourDots()
    ensures Dot([1.0, 0.0, 0.0, 0.0], [1.0, 0.0, 0.0, 0.0]) == 1.0 * 1.0
    ensures Dot([1.0, 1.0, 1.0, 1.0], [1.0, 1.0, 1.0, 1.0]) == 2.0 * 2.0
    ensures Dot([1.0, 0.0, 0.0, 0.0], [1.0, 1.0, 1.0, 1.0]) == 1.0
  {
    var one: seq<real>, zero: seq<real> := [1.0], [0.0];
    DotSnoc([], [], 1.0, 1.0);
    assert Dot(one, one) == 1.0 by { assert one == [] + [1.0]; }
    DotSnoc(one, one, 0.0, 1.0);
    DotSnoc(one + zero, one + one, 0.0, 1.0);
    DotSnoc(one + zero + zero, one + one + one, 0.0, 1.0);
    DotSnoc(one, one, 0.0, 0.0);
    DotSnoc(one + zero, one + zero, 0.0, 0.0);
    DotSnoc(one + zero + zero, one + zero + zero, 0.0, 0.0);
    DotSnoc(one, one, 1.0, 1.0);
    DotSnoc(one + one, one + one, 1.0, 1.0);
    DotSnoc(one + one + one, one + one + one, 1.0, 1.0);
    assert [1.0, 0.0, 0.0, 0.0] == one + zero + zero + zero;
    assert [1.0, 1.0, 1.0, 1.0] == one + one + one + one;
  }

  /** cos([1, 0, 0, 0], [1, 1, 1, 1]) = 1 / (1 * 2) = 0.5. */
  lemma CosineOneHalf(sqrt: real -> real)
    requires IsSqrt(sqrt)
    ensures Cosine(sqrt, [1.0, 0.0, 0.0, 0.0], [1.0, 1.0, 1.0, 1.0]) == 0.5
  {
    FourDots();
    CosineOfKnownNorms(sqrt, [1.0, 0.0, 0.0, 0.0], [1.0, 1.0, 1.0, 1.0], 1.0, 2.0);
  }

  /** The dot products behind `UnitCosines`. */
  lemma TwoDots()
    ensures Dot([1.0, 0.0], [1.0, 0.0]) == 1.0 * 1.0
    ensures Dot([0.0, 1.0], [0.0, 1.0]) == 1.0 * 1.0
    ensures Dot([1.0, 0.0], [0.0, 1.0]) == 0.0
  {
    var one: seq<real>, zero: seq<real> := [1.0], [0.0];
    DotSnoc([], [], 1.0, 1.0);
    DotSnoc([], [], 0.0, 0.0);
    DotSnoc([], [], 1.0, 0.0);
    assert one == [] + [1.0] && zero == [] + [0.0];
    DotSnoc(one, one, 0.0, 0.0);
    DotSnoc(one, zero, 0.0, 1.0);
    DotSnoc(zero, zero, 1.0, 1.0);
    assert [1.0, 0.0] == one + zero && [0.0, 1.0] == zero + one;
  }

  /** cos([1, 0], [1, 0]) = 1 and cos([1, 0], [0, 1]) = 0. */
  lemma UnitCosines(sqrt: real -> real)
    requires IsSqrt(sqrt)
    ensures Cosine(sqrt, [1.0, 0.0], [1.0, 0.0]) == 1.0
    ensures Cosine(sqrt, [1.0, 0.0], [0.0, 1.0]) == 0.0
  {
    TwoDots();
    CosineOfKnownNorms(sqrt, [1.0, 0.0], [1.0, 0.0], 1.0, 1.0);
    CosineOfKnownNorms(sqrt, [1.0, 0.0], [0.0, 1.0], 1.0, 1.0);
  }
}

=== FILE: wrappers.dfy ===
/** Option, Result and Outcome: the model's stand-ins for JavaScript's
    undefined values and thrown errors. */
module Wrappers {

  datatype Option<+T> = None | Some(value: T) {
    function GetOr(default: T): T {
      match this
      case Some(v) => v
      case None => default
    }
  }

  /** The value of an operation that either returns a value or throws. */
  datatype Result<+R, +E> = Success(value: R) | Failure(error: E)

  /** The value of an operation that either completes or throws. */
  datatype Outcome<+E> = Pass | Fail(error: E)
}
